=== FILE: README.md ===
# Maintenance-order record store, modelled in Dafny

`os4_0.py` is a Streamlit app that keeps maintenance orders ("ordens de
serviço") in one CSV file, `ordens_servico4.0.csv`, and keeps timestamped copies
in `backups/`. This project models the record-store part of that app as pure
Dafny functions and methods, and proves what each one guarantees.

- **Schema reconciliation.** Old files have a single `Executante` column.
  `converter_arquivo_antigo` turns it into `Executante1` and `Executante2`. The
  load and save paths then add any of the 13 canonical columns that are missing.
- **Order lifecycle.**
  - The next ID is one more than the greatest ID in use, or 1.
  - Registering an order requires a description, a requester and a location. A
    new order starts pending, untyped and unassigned.
  - The supervisor's update needs a primary executor for "Em execução" and
    "Concluído". It stamps the completion date and time only for "Concluído".
- **Backups.**
  - Each save copies the live file under `ordens_servico_<timestamp>.csv`.
  - After the copy, only the 10 newest backups are kept. Names sort
    lexicographically.
  - The newest backup is the fallback when the live file cannot be read.
- **Queries.**
  - The advanced search matches ID, status and type exactly.
  - It matches the other text columns case-insensitively, by substring.
  - The listing filters by status and type; "Todos" means no filter.

Modules:

| file | module | contents |
|---|---|---|
| `results.dfy` | `Results` | `Option`, `Result` |
| `numerals.dfy` | `Numerals` | decimal text of IDs: `ParseInt`, `ShowInt` |
| `lexorder.dfy` | `LexOrder` | code-point order on names, sorting a set of names |
| `tables.dfy` | `Tables` | columns, rows, tables, legacy conversion, backfill |
| `orders.dfy` | `Orders` | next ID, registering and updating orders |
| `backups.dfy` | `Backups` | backup names, pruning, creation, newest backup |
| `queries.dfy` | `Queries` | search criteria, case folding, listing filters |
| `store.dfy` | `Store` | loading with fallback, saving |

Modelling choices:

- A table is a header (`seq<Column>`) plus rows. Each row maps columns to cell
  text (`map<Column, string>`).
- `Column` names the 13 canonical columns and the legacy `Executante`. Any other
  header is `Other(text)`.
- A cell pandas would hold as NaN is the empty text, which is what the CSV
  file stores for it. The text "nan" that the loader's string conversion makes
  of such a cell is not modelled (see "Left out").
- A row's ID is its `ID` cell read as a whole number: an optionally negative
  decimal numeral, optionally followed by a point and zeros ("3.0", the form the
  writer uses once the ID column holds floating-point values). A cell that is
  not such a numeral has no ID, as NaN does for `max`.
- A new order's ID is written as its canonical numeral ("4"). Where pandas
  would write "4.0" instead, both read back as the same ID.
- The backup directory is a set of file names.
- Clock readings, the backup timestamp, the live file's state and the backup
  files' contents are parameters.

## Model

| member | source | states |
|---|---|---|
| `Tables.ConvertLegacy` | os4_0.py:72-78 | When `Executante` is present and `Executante1` absent: `Executante1` takes the old cells, `Executante2` is blank, `Executante` is removed, every other cell is kept, the row count is kept. Otherwise the table is returned unchanged. |
| `Tables.ConvertLegacyWellFormed` | os4_0.py:72-78 | The conversion keeps a table well formed: distinct columns, and each row has a cell under exactly the header's columns. |
| `Tables.ConvertLegacyIdempotent` | os4_0.py:72-78 | Converting twice equals converting once. |
| `Tables.Backfill` | os4_0.py:175-180 | Afterwards all 13 canonical columns are present. The old columns come first, in order. No other column is added. The row count is kept, every existing cell keeps its text, and each added cell is blank. |
| `Tables.BackfillCanonicalOrder` | os4_0.py:178-180 | The columns Backfill appends come in the order of the canonical header (`colunas_necessarias`), since the loop adds them in that order. |
| `Tables.MissingFromOrder` | os4_0.py:178-180 | Picking out the missing columns keeps the order of the list they are picked from. |
| `Tables.BackfillNoOp` | os4_0.py:207-212 | A table that already has every canonical column is left exactly as it is. |
| `Tables.BackfillIdempotent` | os4_0.py:207-212 | Backfilling twice equals backfilling once. |
| `Tables.BackfillWellFormed` | os4_0.py:178-180 | Backfill keeps a table well formed. |
| `Tables.EmptyTableCanonical` | os4_0.py:201-202 | The empty table with the canonical header has every canonical column and is well formed. |
| `Numerals.ShowInt` | os4_0.py:332 | The ID written into a new row is a numeral, and reading it back gives the same integer. |
| `Numerals.ParseInt` | os4_0.py:325 | A cell yields an integer exactly when it is an optionally negative numeral, optionally followed by a decimal point and zeros. |
| `Numerals.ParseIntWhole` | os4_0.py:325 | A numeral without a decimal point yields the integer its sign and digits denote. |
| `Numerals.ParseShowRoundTrip` | os4_0.py:325 | Reading a canonical numeral (no leading zero, no point, no "-0") and writing the integer back gives the same text; with `ShowInt`'s contract, reading and writing IDs are inverse on canonical numerals. |
| `Numerals.ParseIntLeadingZero` | os4_0.py:325 | A leading zero, after the sign or without one, does not change the integer a cell yields. |
| `Numerals.ParseIntPointZeros` | os4_0.py:325 | An ID in floating-point form, a numeral followed by a point and zeros, yields the same integer as the numeral alone. |
| `Orders.MaxId` | os4_0.py:325 | None exactly when no row has an ID. Otherwise it is the ID of some row and no row's ID exceeds it. |
| `Orders.NextId` | os4_0.py:325 | Greater than every ID in use. It is 1 when no row has an ID; otherwise it is one more than an ID that some row has. |
| `Orders.AddOrder` | os4_0.py:320-347 | Refused with `MissingRequiredField` exactly when the description, requester or location is empty. Otherwise exactly one row is appended at the end and the earlier rows are the backfilled table's; they are untouched when the table already has the canonical columns. The new row has ID `NextId`, the form's texts, the opening date and time, status "Pendente", blank type, completion and executors, and `Urgente` "Sim" or "Não". |
| `Orders.NewOrderRowCells` | os4_0.py:331-345 | Under a header with every canonical column, the new row's cells hold exactly the new order's values. |
| `Orders.AddOrderKeepsIdsUnique` | os4_0.py:325-347 | If IDs were pairwise distinct, they still are after registering an order, because the new ID exceeds all others. |
| `Orders.AppendFreshKeepsIdsUnique` | os4_0.py:347 | Appending a row whose ID exceeds every existing ID keeps IDs pairwise distinct. |
| `Orders.AddOrderWellFormed` | os4_0.py:347 | Registering an order keeps the table well formed. |
| `Orders.BackfillKeepsIdsUnique` | os4_0.py:178-180 | Backfill does not create duplicate IDs. |
| `Orders.UpdateOrder` | os4_0.py:671-684 | Refused with `ExecutorRequired` exactly when the status is "Em execução" or "Concluído" and `Executante1` is empty. Otherwise: no row's ID changes, and the row count and the existing columns' order are kept. Every row with the selected ID gets the new status, executors and type, plus the completion date and time for "Concluído" and blank ones otherwise; its other cells are kept. Every other row keeps each of its cells. The columns afterwards are exactly the old ones plus the six assigned ones; in an assigned column the table lacked, every other row's cell is blank. |
| `Orders.UpdateOrderInPlace` | os4_0.py:674-684 | On a table with the canonical columns, an update changes neither the header nor any row other than those with the selected ID. |
| `Orders.UpdateOrderKeepsIdsUnique` | os4_0.py:674-684 | An update keeps IDs pairwise distinct. |
| `Orders.UpdateOrderWellFormed` | os4_0.py:674-684 | An update keeps the table well formed: no column appears twice, so any of the six assigned columns that was missing is appended once, and every row has a cell in exactly the table's columns. |
| `Orders.UpdateOrderIdempotent` | os4_0.py:674-684 | Submitting the same update twice leaves the table as submitting it once. |
| `Orders.PausingNeedsNoExecutor` | os4_0.py:671-684 | Setting an existing order to "Pausado" or "Pendente" without any executor is accepted; the order takes that status and its completion date and time are blanked. |
| `Orders.ClosingAnOrder` | os4_0.py:671-681 | Closing an existing order without a primary executor is refused. With one, the order reads "Concluído" with that executor and the given completion date and time. |
| `Orders.FirstOrderRegistered` | os4_0.py:325 | The first order registered on the empty table gets ID 1 and starts pending. |
| `Backups.BackupName` | os4_0.py:142-143 | A backup's name matches the listing pattern `ordens_servico_*.csv`, and the timestamp can be read back out of it. |
| `Backups.BackupNameInjective` | os4_0.py:142-143 | Distinct timestamps give distinct backup names. |
| `Backups.Listing` | os4_0.py:151 | The listing is strictly sorted and holds exactly the directory's names that match the pattern. |
| `Backups.PruneOldBackups` | os4_0.py:149-157 | With k >= 0 and n backups, exactly min(n, k) backups remain, and they are the last min(n, k) of the sorted listing. Every other file is kept. Every deleted backup sorts before every survivor. |
| `Backups.DeleteOldest` | os4_0.py:152-155 | The deletion loop removes exactly the first n - min(n, k) names of the sorted listing. |
| `Backups.PrunedToListing` | os4_0.py:149-157 | After pruning to k, the backups left are exactly the last min(n, k) names of the original sorted listing, so after a save exactly the k newest backups remain once there are k. |
| `Backups.MakeBackup` | os4_0.py:139-157 | An absent or empty live file creates nothing and leaves the directory unchanged. Otherwise the result is `Some` of the timestamp's backup name, and the directory afterwards is exactly the directory with that name added, minus its oldest backups beyond 10 (`PrunedTo`): every other file stays, at most 10 backups remain, and no name other than the new one is added. A new name that sorts after every existing backup is among the survivors. |
| `Backups.NewestSurvives` | os4_0.py:152-155 | The greatest backup name is last in the listing, so it survives any pruning that keeps at least one backup. |
| `Backups.Latest` | os4_0.py:159-164 | None exactly when the directory holds no backup. Otherwise a backup that sorts after every other backup. |
| `LexOrder.SortSet` | os4_0.py:151 | Sorting a set of names gives a strictly increasing sequence with exactly the set's elements. |
| `LexOrder.SortedUnique` | os4_0.py:151 | Two strictly sorted sequences with the same elements are equal, so a sorted listing is determined by the directory. |
| `LexOrder.LessTransitive` | os4_0.py:151 | The order on names is transitive. |
| `LexOrder.LessTrichotomy` | os4_0.py:151 | Any two names are equal or ordered one way or the other. |
| `Queries.Search` | os4_0.py:388-399 | The header is kept. The rows are the table's rows that match the criterion, in table order, each matching row as many times as the table holds it and no other row. ID, status and type match by equality, other columns by case-insensitive substring. |
| `Queries.Select` | os4_0.py:390-399 | Keeps the matching rows, each with its multiplicity in the input, drops all others, and keeps table order. |
| `Queries.SelectCount` | os4_0.py:390-399 | Each matching row appears in the selection exactly as many times as in the input, and no other row appears: the boolean mask keeps every copy. |
| `Queries.SelectAppend` | os4_0.py:390-399 | Selecting from a concatenation is the concatenation of the selections. |
| `Queries.SelectIdempotent` | os4_0.py:390-399 | Selecting again with the same criterion changes nothing. |
| `Queries.Occurs` | os4_0.py:399 | True exactly when the needle occurs in the text at some position. |
| `Queries.ContainsIgnoringCase` | os4_0.py:399 | True exactly when the case-folded needle occurs in the case-folded text. The empty needle and the text itself always match. |
| `Queries.SearchIgnoresCase` | os4_0.py:399 | A text and its case-folded form match the same needles, and so do a needle and its case-folded form. |
| `Queries.ListFilter` | os4_0.py:367-370 | The header is kept. A row is kept, as many times as the table holds it, exactly when it passes the status filter ("Todos" or equal status) and the type filter ("Todos" or equal type); no other row appears. "Todos" for both returns the table unchanged. |
| `Queries.ListFilterOrdered` | os4_0.py:367-370 | The listing keeps the table's row order. |
| `Store.Normalize` | os4_0.py:172-180 | A freshly read table keeps its row count and every cell outside the migrated columns. On a legacy table the primary executor takes the legacy executor's cells, the secondary executor is blank, and the legacy column is gone. Each canonical column the file lacked is added with blank cells, so every canonical column is present, and a well-formed table stays well formed. |
| `Store.Load` | os4_0.py:166-202 | The loaded table has every canonical column on every path. A missing live file gives the empty canonical table, written out. A readable live file is normalised (`Normalize`) and not rewritten. An unreadable one is replaced by the normalised newest backup exactly when that backup exists and reads, and what is written is what is loaded. Otherwise the empty canonical table is used and nothing is written. |
| `Store.LoadAsWritten` | os4_0.py:189-199 | The fallback as written: when the live file is unreadable and the newest backup exists and reads, that backup after legacy conversion only is loaded and written back. Otherwise an unreadable file gives the empty canonical table with nothing written. Every other path is the same as `Load`. |
| `Store.LoadAsWrittenMissesColumns` | os4_0.py:193-197 | A backup holding only the ID column comes back from the as-written fallback without the other canonical columns. |
| `Store.LoadCurrentLayout` | os4_0.py:172-180 | Loading a table that already has the canonical columns gives back that table. |
| `Store.Save` | os4_0.py:204-221 | The written table is the backfilled table (`Backfill`): the existing columns in order, then exactly the missing canonical columns with blank cells. It has every canonical column, the same rows, and every existing cell. Loading it gives it back unchanged. A backup is created under the timestamp's name; the backup directory afterwards is the old one with that name added, minus its oldest backups beyond 10, so other files stay and no other name is added. A backup named after every existing one survives. |
| `Store.SaveLoadRoundTrip` | os4_0.py:204-221 | Loading a saved table yields that table, with nothing rewritten. |

## Left out

- Streamlit UI, session state and the supervision password: presentation only.
- Dashboards and `calcular_lead_time`: charting, floating-point arithmetic and
  date parsing.
- GitHub sync (`baixar_do_github`, `enviar_para_github`, `configurar_github`)
  and the JSON configuration: network calls to a foreign library. On the
  missing-file path, only the no-GitHub branch of `inicializar_arquivos` is
  modelled.
- Reading and writing CSV text: assumed exact. A file's content is the parsed
  table, with every cell as text.
- Blank cells read back as NaN. pandas reads an empty field as NaN, and the
  `astype(str)` calls at os4_0.py:182-186 turn it into the text "nan" in
  `Executante1`, `Executante2`, `Data Conclusão`, `Hora Conclusão` and
  `Urgente`. So after the next load, an unassigned order's executors and an
  open order's completion date and time read "nan" in the source, where the
  model keeps "". The search's `astype(str)` (os4_0.py:399) does the same to
  every blank cell, so a text search for "an" in `Executante1` matches every
  unassigned order in the source and none in the model. The same holds for
  cells pandas creates as NaN rather than reads: the new row's cells in any
  extra column after `pd.concat` (os4_0.py:347), and the unselected rows'
  cells in a column the update's `.loc` assignments add (os4_0.py:674-684).
  The model writes "" for both (`Orders.AddOrder`, `Orders.UpdateOrder`). On
  save, `salvar_csv`'s `astype(str)` calls (os4_0.py:214-218) turn any NaN in
  the same five columns into the text "nan" in the written file, where the
  model writes "".
- `Store.SaveLoadRoundTrip` and `Store.LoadCurrentLayout`: hold only under the
  blank-cells-stay-blank abstraction above; in the source, loading a saved
  table with blank cells in those five columns gives "nan" there.
- The load's error messages (`st.error`) and `salvar_csv`'s False return on an
  exception: only the successful save is modelled.
- `datetime.utcnow()` and timestamp formatting: dates, times and backup
  timestamps are parameters. Timestamps are assumed to sort chronologically.
- The retry loop around `os.remove` (os4_0.py:153-157): only successful
  deletions are modelled.
- `Backups.PruneOldBackups`: requires a non-negative maximum. With a negative
  one the source loop never ends: `backups[0]` raises on the empty list, and the
  bare `except` retries forever.
- The restore of a chosen backup in `gerenciar_backups` (a shell copy,
  os4_0.py:731): filesystem side effect.
- Regex semantics of `str.contains`: the needle is matched as plain text.
- `Tables.ConvertLegacy` and `Store.Normalize`: state which columns the result
  has, not their order (the migration keeps the old columns without
  `Executante`, then appends `Executante1`, then `Executante2` when it is new).
- `Queries.ContainsIgnoringCase`: folds case only for ASCII and the Latin-1
  capitals À–Þ. Full Unicode case folding is not modelled.
- The search and update selectors restrict their choices (ID at least 1, only
  orders not yet done, executors from a fixed list). The model accepts any value
  the form could pass.
- A non-numeric ID column, on which pandas' `max` would fail: here such cells
  are treated like NaN.
- IDs with a fractional part other than zeros ("3.5"), an explicit plus sign
  ("+3") or an exponent ("3e0"): pandas reads these as numbers, but the app
  never writes them, so such a cell is treated like NaN.
- `pmoc.py`: a PDF layout fragment with no record-store logic.

## Findings

| source | as written | input that shows it | evidently intended | confidence | as-written member | corrected member |
|---|---|---|---|---|---|---|
| os4_0.py:193-197 | When the live file cannot be read, the newest backup is loaded and converted from the legacy layout. It is written over the live file and returned without the canonical-column backfill that the normal path (lines 175-180) applies. | The live file cannot be parsed, and the newest backup holds only an `ID` column. The loaded table lacks `Status`, `Tipo`, `Executante1` and the rest. The listing, search and update then index columns that do not exist. | Backfill the backup like the live file, so that every load yields all 13 canonical columns. | medium, not executed | `Store.LoadAsWritten`, `Store.LoadAsWrittenMissesColumns` | `Store.Load` |


=== FILE: backups.dfy ===
/** The backup directory: timestamped copies of the live CSV file, pruned to
    the newest few. The directory is the set of its file names; the names sort
    by code point, and the timestamps in them are written so that this order is
    their chronological order. */
module Backups {
  import opened Results
  import opened LexOrder

  const BackupPrefix: string := "ordens_servico_"
  const BackupSuffix: string := ".csv"

  /** How many backups the app keeps after each save. */
  const MaxBackups: nat := 10

  /** n matches the listing pattern `ordens_servico_*.csv`; the wildcard may
      match the empty text. */
  predicate IsBackupName(n: string) {
    && |n| >= |BackupPrefix| + |BackupSuffix|
    && n[..|BackupPrefix|] == BackupPrefix
    && n[|n| - |BackupSuffix|..] == BackupSuffix
  }

  /** The name of the backup taken at the given timestamp. */
  function BackupName(stamp: string): (n: string)
    ensures IsBackupName(n)
    ensures n[|BackupPrefix|..|n| - |BackupSuffix|] == stamp
  {
    var n := BackupPrefix + stamp + BackupSuffix;
    assert n[..|BackupPrefix|] == BackupPrefix;
    assert n[|n| - |BackupSuffix|..] == BackupSuffix;
    assert n[|BackupPrefix|..|n| - |BackupSuffix|] == stamp;
    n
  }

  /** Timestamps are recovered from their backup names, so distinct timestamps
      never overwrite each other's backup. */
  lemma BackupNameInjective(a: string, b: string)
    requires BackupName(a) == BackupName(b)
    ensures a == b
  {
    var n := BackupName(a);
    assert a == n[|BackupPrefix|..|n| - |BackupSuffix|];
  }

  /** The backups in the directory, in sorted order. */
  function Listing(dir: set<string>): (r: seq<string>)
    ensures StrictlySorted(r)
    ensures forall n :: n in r <==> n in dir && IsBackupName(n)
  {
    SortSet(set n | n in dir && IsBackupName(n))
  }

  function Min(a: int, b: int): int {
    if a <= b then a else b
  }

  /** A strictly sorted list without its first element is still strictly sorted. */
  lemma SuffixSorted(s: seq<string>, k: nat)
    requires StrictlySorted(s) && k <= |s|
    ensures StrictlySorted(s[k..])
  {
    forall i, j | 0 <= i < j < |s| - k
      ensures Less(s[k..][i], s[k..][j])
    {
      assert s[k..][i] == s[k + i] && s[k..][j] == s[k + j];
    }
  }

  /** Removes backups from the oldest end until at most maxBackups remain.
      Every other file in the directory is left alone, the survivors are the
      newest backups, and each deleted backup is older than each survivor. */
  method PruneOldBackups(dir: set<string>, maxBackups: int) returns (kept: set<string>)
    requires maxBackups >= 0
    ensures PrunedTo(dir, maxBackups, kept)
    ensures kept <= dir
    ensures forall n | n in dir && !IsBackupName(n) :: n in kept
    ensures Listing(kept) == Listing(dir)[|Listing(dir)| - Min(|Listing(dir)|, maxBackups)..]
    ensures forall x, y | x in dir && x !in kept && y in kept && IsBackupName(y) :: Less(x, y)
  {
    kept := DeleteOldest(dir, maxBackups);
    PruneOutcome(dir, maxBackups, |Listing(dir)| - Min(|Listing(dir)|, maxBackups), kept);
  }

  /** The deletion loop: walks the sorted listing from its oldest end, deleting
      each name, while more than maxBackups names are left. */
  method DeleteOldest(dir: set<string>, maxBackups: int) returns (kept: set<string>)
    requires maxBackups >= 0
    ensures PrunedTo(dir, maxBackups, kept)
  {
    var all := Listing(dir);
    var backups := all;
    kept := dir;
    ghost var removed: nat := 0;
    while |backups| > maxBackups
      invariant removed + |backups| == |all|
      invariant backups == all[removed..]
      invariant |backups| >= Min(|all|, maxBackups)
      invariant forall n :: n in kept <==> n in dir && n !in all[..removed]
      decreases |backups|
    {
      assert all[..removed + 1] == all[..removed] + [backups[0]];
      kept := kept - {backups[0]};
      backups := backups[1..];
      removed := removed + 1;
    }
  }

  /** kept is dir after deleting its oldest backups down to maxBackups. */
  ghost predicate PrunedTo(dir: set<string>, maxBackups: int, kept: set<string>) {
    var all := Listing(dir);
    && 0 <= maxBackups
    && forall n :: n in kept <==> n in dir && n !in all[..|all| - Min(|all|, maxBackups)]
  }

  lemma PruneOutcome(dir: set<string>, maxBackups: int, m: nat, kept: set<string>)
    requires 0 <= maxBackups && m <= |Listing(dir)|
    requires m == |Listing(dir)| - Min(|Listing(dir)|, maxBackups)
    requires forall n :: n in kept <==> n in dir && n !in Listing(dir)[..m]
    ensures PrunedTo(dir, maxBackups, kept)
    ensures kept <= dir
    ensures forall n | n in dir && !IsBackupName(n) :: n in kept
    ensures |Listing(kept)| == Min(|Listing(dir)|, maxBackups)
    ensures Listing(kept) == Listing(dir)[m..]
    ensures forall x, y | x in dir && x !in kept && y in kept && IsBackupName(y) :: Less(x, y)
  {
    var all := Listing(dir);
    PruneSplit(all, m, dir, kept);
    SuffixSorted(all, m);
    SortedUnique(Listing(kept), all[m..]);
  }

  /** A directory pruned to k backups holds exactly the k newest backups of
      the original, or all of them when there were fewer. */
  lemma PrunedToListing(dir: set<string>, k: int, kept: set<string>)
    requires PrunedTo(dir, k, kept)
    ensures |Listing(kept)| == Min(|Listing(dir)|, k)
    ensures Listing(kept) == Listing(dir)[|Listing(dir)| - Min(|Listing(dir)|, k)..]
  {
    PruneOutcome(dir, k, |Listing(dir)| - Min(|Listing(dir)|, k), kept);
  }

  /** In a strictly sorted list no name before position m recurs after it. */
  lemma PrefixSuffixDisjoint(all: seq<string>, m: nat)
    requires StrictlySorted(all) && m <= |all|
    ensures forall n | n in all[..m] :: n !in all[m..]
  {
    forall i, j | 0 <= i < m <= j < |all|
      ensures all[i] != all[j]
    {
      LessIrreflexive(all[i]);
    }
    assert forall n | n in all[..m] :: n !in all[m..];
  }

  /** Deleting the first m names of the sorted listing leaves exactly the
      remaining names as backups, each newer than every deleted one. */
  lemma PruneSplit(all: seq<string>, m: nat, dir: set<string>, kept: set<string>)
    requires StrictlySorted(all) && m <= |all|
    requires forall n :: n in all <==> n in dir && IsBackupName(n)
    requires forall n :: n in kept <==> n in dir && n !in all[..m]
    ensures forall n :: n in all[m..] <==> n in kept && IsBackupName(n)
    ensures forall x, y | x in dir && x !in kept && y in kept && IsBackupName(y) :: Less(x, y)
  {
    PrefixSuffixDisjoint(all, m);
    assert all == all[..m] + all[m..];
    forall x, y | x in dir && x !in kept && y in kept && IsBackupName(y)
      ensures Less(x, y)
    {
      var i :| 0 <= i < m && all[..m][i] == x;
      assert y in all[m..];
      var j :| 0 <= j < |all| - m && all[m..][j] == y;
      assert all[i] == x && all[m + j] == y;
    }
  }

  /** The live file as the backup step sees it: absent, or present with a size. */
  predicate HasContent(liveSize: Option<nat>) {
    liveSize.Some? && liveSize.value > 0
  }

  /** Copies a non-empty live file into the directory under the timestamp's
      backup name, then prunes to MaxBackups. An absent or empty live file
      creates nothing. A backup named after every existing one survives the
      pruning. */
  method MakeBackup(dir: set<string>, liveSize: Option<nat>, stamp: string)
    returns (created: Option<string>, after: set<string>)
    ensures !HasContent(liveSize) ==> created == None && after == dir
    ensures HasContent(liveSize) ==> created == Some(BackupName(stamp))
    ensures HasContent(liveSize) ==> |Listing(after)| <= MaxBackups
    ensures HasContent(liveSize) ==> after <= dir + {BackupName(stamp)}
    ensures HasContent(liveSize) ==> PrunedTo(dir + {BackupName(stamp)}, MaxBackups, after)
    ensures (HasContent(liveSize) && forall n | n in dir && IsBackupName(n) :: Less(n, BackupName(stamp)))
            ==> BackupName(stamp) in after
  {
    if !HasContent(liveSize) {
      return None, dir;
    }
    var name := BackupName(stamp);
    var copied := dir + {name};
    after := PruneOldBackups(copied, MaxBackups);
    created := Some(name);
    if forall n | n in dir && IsBackupName(n) :: Less(n, name) {
      NewestSurvives(copied, name, MaxBackups);
    }
  }

  /** The greatest backup name is the last of the listing, so it survives any
      pruning that keeps at least one backup. */
  lemma NewestSurvives(dir: set<string>, name: string, k: nat)
    requires name in dir && IsBackupName(name)
    requires forall n | n in dir && IsBackupName(n) && n != name :: Less(n, name)
    requires k >= 1
    ensures name in Listing(dir)[|Listing(dir)| - Min(|Listing(dir)|, k)..]
  {
    var l := Listing(dir);
    assert name in l;
    var i :| 0 <= i < |l| && l[i] == name;
    if i < |l| - 1 {
      assert Less(name, l[|l| - 1]);
      assert Less(l[|l| - 1], name);
      LessAsymmetric(name, l[|l| - 1]);
    }
    assert l[|l| - 1] == name;
  }

  /** The most recent backup: the greatest backup name, or None when the
      directory holds no backup. */
  function Latest(dir: set<string>): (r: Option<string>)
    ensures r.None? <==> forall n | n in dir :: !IsBackupName(n)
    ensures r.Some? ==> r.value in dir && IsBackupName(r.value)
    ensures r.Some? ==> forall n | n in dir && IsBackupName(n) && n != r.value :: Less(n, r.value)
  {
    var l := Listing(dir);
    if |l| == 0 then None
    else
      var m := l[|l| - 1];
      assert forall n | n in dir && IsBackupName(n) && n != m :: Less(n, m) by {
        forall n | n in dir && IsBackupName(n) && n != m
          ensures Less(n, m)
        {
          var i :| 0 <= i < |l| && l[i] == n;
        }
      }
      Some(m)
  }
}

=== FILE: lexorder.dfy ===
/** The order in which the backup listing is sorted: strings compared
    character by character by code point, a proper prefix sorting first.
    (Dafny's own `<` on sequences is the proper-prefix relation, so the
    comparison is defined here.) */
module LexOrder {

  /** a sorts strictly before b. */
  predicate Less(a: string, b: string)
    decreases |a|
  {
    if |a| == 0 then |b| > 0
    else if |b| == 0 then false
    else if a[0] != b[0] then a[0] < b[0]
    else Less(a[1..], b[1..])
  }

  lemma {:induction false} LessIrreflexive(a: string)
    ensures !Less(a, a)
    decreases |a|
  {
    if |a| > 0 {
      LessIrreflexive(a[1..]);
    }
  }

  lemma {:induction false} LessTransitive(a: string, b: string, c: string)
    requires Less(a, b) && Less(b, c)
    ensures Less(a, c)
    decreases |a|
  {
    if |a| > 0 && a[0] == b[0] && b[0] == c[0] {
      LessTransitive(a[1..], b[1..], c[1..]);
    }
  }

  lemma {:induction false} LessTrichotomy(a: string, b: string)
    ensures Less(a, b) || a == b || Less(b, a)
    decreases |a|
  {
    if |a| > 0 && |b| > 0 && a[0] == b[0] {
      LessTrichotomy(a[1..], b[1..]);
      if a[1..] == b[1..] {
        assert a == [a[0]] + a[1..] && b == [b[0]] + b[1..];
      }
    }
  }

  lemma LessAsymmetric(a: string, b: string)
    requires Less(a, b)
    ensures !Less(b, a)
  {
    if Less(b, a) {
      LessTransitive(a, b, a);
      LessIrreflexive(a);
    }
  }

  /** s lists strictly increasing names, hence without repetition. */
  ghost predicate StrictlySorted(s: seq<string>) {
    forall i, j | 0 <= i < j < |s| :: Less(s[i], s[j])
  }

  predicate IsLeast(m: string, s: set<string>) {
    m in s && forall x | x in s && x != m :: Less(m, x)
  }

  lemma {:induction false} LeastExists(s: set<string>)
    requires s != {}
    ensures exists m :: IsLeast(m, s)
    decreases |s|
  {
    var y :| y in s;
    if s == {y} {
      assert IsLeast(y, s);
    } else {
      LeastExists(s - {y});
      var m :| IsLeast(m, s - {y});
      LessTrichotomy(m, y);
      if Less(m, y) {
        assert IsLeast(m, s);
      } else {
        forall x | x in s && x != y
          ensures Less(y, x)
        {
          if x != m {
            LessTransitive(y, m, x);
          }
        }
        assert IsLeast(y, s);
      }
    }
  }

  lemma LeastUnique(s: set<string>, m: string, m': string)
    requires IsLeast(m, s) && IsLeast(m', s)
    ensures m == m'
  {
    if m != m' {
      LessAsymmetric(m, m');
    }
  }

  /** The smallest name of a non-empty set. */
  function Least(s: set<string>): (m: string)
    requires s != {}
    ensures m in s
    ensures forall x | x in s && x != m :: Less(m, x)
  {
    LeastExists(s);
    assert forall m, m' | IsLeast(m, s) && IsLeast(m', s) :: m == m' by {
      forall m, m' | IsLeast(m, s) && IsLeast(m', s) ensures m == m' {
        LeastUnique(s, m, m');
      }
    }
    var m :| IsLeast(m, s);
    m
  }

  /** The names of a set in ascending order, as Python's sorted() lists them. */
  function SortSet(s: set<string>): (r: seq<string>)
    ensures |r| == |s|
    ensures forall x :: x in r <==> x in s
    ensures StrictlySorted(r)
    decreases |s|
  {
    if s == {} then []
    else
      var m := Least(s);
      [m] + SortSet(s - {m})
  }

  /** A strictly increasing listing is determined by its elements: whatever
      procedure produced it, it is the sorted listing of its set. */
  lemma {:induction false} SortedUnique(a: seq<string>, b: seq<string>)
    requires StrictlySorted(a) && StrictlySorted(b)
    requires forall x :: x in a <==> x in b
    ensures a == b
    decreases |a|
  {
    assert |a| > 0 ==> a[0] in b;
    assert |b| > 0 ==> b[0] in a;
    if |a| > 0 && |b| > 0 {
      if a[0] != b[0] {
        assert a[0] in a && b[0] in b;
        var i :| 0 <= i < |a| && a[i] == b[0];
        var j :| 0 <= j < |b| && b[j] == a[0];
        assert Less(a[0], b[0]);
        assert Less(b[0], a[0]);
        LessAsymmetric(a[0], b[0]);
      }
      forall x
        ensures x in a[1..] <==> x in b[1..]
      {
        if x in a[1..] {
          var i :| 1 <= i < |a| && a[i] == x;
          LessIrreflexive(a[0]);
          assert x != a[0];
          assert x in b;
        }
        if x in b[1..] {
          var j :| 1 <= j < |b| && b[j] == x;
          LessIrreflexive(b[0]);
          assert x != b[0];
          assert x in a;
        }
      }
      SortedUnique(a[1..], b[1..]);
      assert a == [a[0]] + a[1..] && b == [b[0]] + b[1..];
    }
  }

  /** A strictly sorted listing has as many entries as its set has elements. */
  lemma SortedCardinality(a: seq<string>, s: set<string>)
    requires StrictlySorted(a)
    requires forall x :: x in a <==> x in s
    ensures |a| == |s|
  {
    SortedUnique(a, SortSet(s));
  }
}

=== FILE: numerals.dfy ===
/** Decimal numerals: how an ID cell of the order table is read as an integer
    and how a freshly allocated ID is written back into its cell. */
module Numerals {
  import opened Results

  predicate IsDigit(c: char) {
    '0' <= c <= '9'
  }

  predicate AllDigits(s: string) {
    forall i | 0 <= i < |s| :: IsDigit(s[i])
  }

  function DigitValue(c: char): nat
    requires IsDigit(c)
  {
    c as int - '0' as int
  }

  function DigitChar(d: nat): (c: char)
    requires d < 10
    ensures IsDigit(c) && DigitValue(c) == d
  {
    ('0' as int + d) as char
  }

  /** The value of a digit string, most significant digit first. */
  function DigitsValue(s: string): nat
    requires AllDigits(s)
  {
    if |s| == 0 then 0 else DigitsValue(s[..|s| - 1]) * 10 + DigitValue(s[|s| - 1])
  }

  /** The canonical decimal numeral of a natural number: non-empty, digits only,
      and reading it back gives the number. */
  function ShowNat(n: nat): (s: string)
    ensures |s| > 0 && AllDigits(s)
    ensures DigitsValue(s) == n
  {
    if n < 10 then [DigitChar(n)]
    else
      var prefix := ShowNat(n / 10);
      var s := prefix + [DigitChar(n % 10)];
      assert s[..|s| - 1] == prefix;
      s
  }

  /** An integer numeral: an optional minus sign followed by at least one
      decimal digit. */
  predicate IsInteger(s: string) {
    || (|s| > 1 && s[0] == '-' && AllDigits(s[1..]))
    || (|s| > 0 && AllDigits(s))
  }

  function IntegerValue(s: string): int
    requires IsInteger(s)
  {
    if s[0] == '-' then -(DigitsValue(s[1..]) as int) else DigitsValue(s)
  }

  /** The position of the first decimal point in s, or |s| when there is none. */
  function DotIndex(s: string): (k: nat)
    ensures k <= |s|
    ensures forall i | 0 <= i < k :: s[i] != '.'
    ensures k < |s| ==> s[k] == '.'
  {
    if |s| == 0 || s[0] == '.' then 0 else 1 + DotIndex(s[1..])
  }

  predicate AllZeros(s: string) {
    forall i | 0 <= i < |s| :: s[i] == '0'
  }

  /** The ID cells the CSV reader turns into whole numbers: an integer numeral,
      optionally followed by a decimal point and zeros. The second form, as in
      "3.0", is how the writer puts a whole number once the ID column holds
      floating-point values. */
  predicate IsNumeral(s: string) {
    var k := DotIndex(s);
    IsInteger(s[..k]) && (k == |s| || AllZeros(s[k + 1..]))
  }

  /** Reads an ID cell; a cell that is not a numeral has no integer value. */
  function ParseInt(s: string): (r: Option<int>)
    ensures r.Some? <==> IsNumeral(s)
  {
    var k := DotIndex(s);
    if IsInteger(s[..k]) && (k == |s| || AllZeros(s[k + 1..])) then Some(IntegerValue(s[..k]))
    else None
  }

  /** A numeral without a decimal point is read whole. */
  lemma ParseIntWhole(s: string)
    requires IsInteger(s)
    ensures ParseInt(s) == Some(IntegerValue(s))
  {
    assert DotIndex(s) == |s|;
    assert s[..|s|] == s;
  }

  /** Writes an integer as the cell text of an ID; reading the cell back yields
      the same integer, so distinct IDs are written as distinct cells. */
  function ShowInt(n: int): (s: string)
    ensures IsNumeral(s)
    ensures ParseInt(s) == Some(n)
  {
    if n < 0 then
      var digits := ShowNat(-n);
      assert ("-" + digits)[1..] == digits;
      ParseIntWhole("-" + digits);
      "-" + digits
    else
      ParseIntWhole(ShowNat(n));
      ShowNat(n)
  }

  /** The numerals ShowInt writes: no leading zero, no point, no "-0". */
  predicate IsCanonicalNumeral(s: string) {
    || (|s| > 0 && AllDigits(s) && (|s| == 1 || s[0] != '0'))
    || (|s| > 1 && s[0] == '-' && AllDigits(s[1..]) && s[1] != '0')
  }

  /** A digit string that does not start with 0 has a positive value. */
  lemma {:induction false} LeadingDigitPositive(d: string)
    requires |d| > 0 && AllDigits(d) && d[0] != '0'
    ensures DigitsValue(d) > 0
    decreases |d|
  {
    if |d| > 1 {
      var p := d[..|d| - 1];
      assert AllDigits(p) && p[0] == d[0];
      LeadingDigitPositive(p);
    }
  }

  /** Writing the value of a digit string without leading zeros gives it back. */
  lemma {:induction false} ShowNatDigits(d: string)
    requires |d| > 0 && AllDigits(d) && (|d| == 1 || d[0] != '0')
    ensures ShowNat(DigitsValue(d)) == d
    decreases |d|
  {
    var p := d[..|d| - 1];
    var c := d[|d| - 1];
    assert AllDigits(p);
    if |d| == 1 {
      assert d == [c];
    } else {
      assert p[0] == d[0];
      LeadingDigitPositive(p);
      ShowNatDigits(p);
      var n := DigitsValue(d);
      assert n / 10 == DigitsValue(p) && n % 10 == DigitValue(c);
      assert d == p + [c];
    }
  }

  /** Reading a canonical numeral and writing the integer back gives the
      numeral: together with ShowInt's contract, ParseInt and ShowInt are
      inverse bijections between integers and canonical numerals. */
  lemma ParseShowRoundTrip(s: string)
    requires IsCanonicalNumeral(s)
    ensures ParseInt(s).Some? && ShowInt(ParseInt(s).value) == s
  {
    ParseIntWhole(s);
    if s[0] == '-' {
      var d := s[1..];
      ShowNatDigits(d);
      LeadingDigitPositive(d);
      assert s == "-" + d;
    } else {
      ShowNatDigits(s);
    }
  }

  /** A leading zero does not change a digit string's value. */
  lemma {:induction false} LeadingZeroValue(d: string)
    requires AllDigits(d)
    ensures AllDigits("0" + d) && DigitsValue("0" + d) == DigitsValue(d)
    decreases |d|
  {
    var z := "0" + d;
    if |d| > 0 {
      var p := d[..|d| - 1];
      assert AllDigits(p);
      LeadingZeroValue(p);
      assert z[..|z| - 1] == "0" + p;
    }
  }

  /** Leading zeros do not change the integer an ID cell yields. */
  lemma ParseIntLeadingZero(d: string)
    requires |d| > 0 && AllDigits(d)
    ensures ParseInt("0" + d) == ParseInt(d)
    ensures ParseInt("-0" + d) == ParseInt("-" + d)
  {
    LeadingZeroValue(d);
    ParseIntWhole(d);
    ParseIntWhole("0" + d);
    assert ("-" + d)[1..] == d;
    assert ("-0" + d)[1..] == "0" + d;
    ParseIntWhole("-" + d);
    ParseIntWhole("-0" + d);
  }

  /** An ID written in floating-point form, a numeral followed by a decimal
      point and zeros, yields the same integer as the numeral. */
  lemma ParseIntPointZeros(s: string, zeros: string)
    requires IsInteger(s) && AllZeros(zeros)
    ensures ParseInt(s + "." + zeros) == ParseInt(s)
  {
    ParseIntWhole(s);
    var f := s + "." + zeros;
    assert forall i | 0 <= i < |s| :: f[i] == s[i] && s[i] != '.';
    assert f[|s|] == '.';
    assert DotIndex(f) == |s|;
    assert f[..|s|] == s && f[|s| + 1..] == zeros;
  }
}

=== FILE: orders.dfy ===
/** The order lifecycle: allocating the next ID, registering a new order and
    the supervisor's update of an order's status, type and executors. Clock
    readings (opening and completion date and time) are parameters. */
module Orders {
  import opened Results
  import opened Numerals
  import opened Tables

  const Pending := "Pendente"
  const Paused := "Pausado"
  const InProgress := "Em execução"
  const Done := "Concluído"

  const Yes := "Sim"
  const No := "Não"

  datatype OrderError =
    | MissingRequiredField  // description, requester or location left blank
    | ExecutorRequired      // in progress or done without a primary executor

  /** The greatest numeric ID of the rows; None when no row has one. */
  function MaxId(rows: seq<Row>): (m: Option<int>)
    ensures m.None? <==> forall i | 0 <= i < |rows| :: IdOf(rows[i]).None?
    ensures m.Some? ==> exists i | 0 <= i < |rows| :: IdOf(rows[i]) == m
    ensures m.Some? ==> forall i | 0 <= i < |rows| && IdOf(rows[i]).Some? :: IdOf(rows[i]).value <= m.value
  {
    if |rows| == 0 then None
    else
      var rest := MaxId(rows[1..]);
      assert forall i | 1 <= i < |rows| :: rows[i] == rows[1..][i - 1];
      match IdOf(rows[0])
      case None => rest
      case Some(a) =>
        if rest.None? || rest.value < a then Some(a) else rest
  }

  /** The ID given to the next order: one more than the greatest ID in use, or 1
      when no order has an ID. */
  function NextId(t: Table): (n: int)
    ensures forall i | 0 <= i < |t.rows| && IdOf(t.rows[i]).Some? :: IdOf(t.rows[i]).value < n
    ensures (forall i | 0 <= i < |t.rows| :: IdOf(t.rows[i]).None?) ==> n == 1
    ensures (exists i | 0 <= i < |t.rows| :: IdOf(t.rows[i]).Some?) ==>
              exists i | 0 <= i < |t.rows| :: IdOf(t.rows[i]) == Some(n - 1)
  {
    match MaxId(t.rows)
    case None => 1
    case Some(m) => m + 1
  }

  /** The new order's cell in each column: its ID, the form's text, the opening
      date and time, status pending, no type, no completion, no executors, and
      the urgency flag written as "Sim" or "Não"; blank in any other column. */
  function NewOrderCell(c: Column, id: int, description: string, requester: string, location: string,
                        urgent: bool, openDate: string, openTime: string): string
  {
    match c
    case Id => ShowInt(id)
    case Description => description
    case OpenDate => openDate
    case OpenTime => openTime
    case Requester => requester
    case Location => location
    case Status => Pending
    case Urgent => if urgent then Yes else No
    case _ => ""
  }

  /** The cells a new order row holds in each canonical column. */
  ghost predicate IsNewOrderRow(row: Row, id: int, description: string, requester: string, location: string,
                                urgent: bool, openDate: string, openTime: string)
  {
    && HasFormCells(row, id, description, requester, location, openDate, openTime)
    && HasInitialState(row, urgent)
  }

  /** The cells the registration form fills: the ID, the three texts and the opening stamp. */
  ghost predicate HasFormCells(row: Row, id: int, description: string, requester: string, location: string,
                               openDate: string, openTime: string)
  {
    && IdOf(row) == Some(id)
    && Cell(row, Description) == description && Cell(row, Requester) == requester
    && Cell(row, Location) == location
    && Cell(row, OpenDate) == openDate && Cell(row, OpenTime) == openTime
  }

  /** The state a new order starts in: pending, untyped, unassigned, not done. */
  ghost predicate HasInitialState(row: Row, urgent: bool) {
    && Cell(row, Status) == Pending && Cell(row, Kind) == ""
    && Cell(row, DoneDate) == "" && Cell(row, DoneTime) == ""
    && Cell(row, Executor1) == "" && Cell(row, Executor2) == ""
    && Cell(row, Urgent) == (if urgent then Yes else No)
  }

  function NewOrderRow(columns: seq<Column>, id: int, description: string, requester: string, location: string,
                       urgent: bool, openDate: string, openTime: string): Row
  {
    map c | c in columns :: NewOrderCell(c, id, description, requester, location, urgent, openDate, openTime)
  }

  /** Over a header with every canonical column, the new row holds the new order. */
  lemma NewOrderRowCells(columns: seq<Column>, id: int, description: string, requester: string, location: string,
                         urgent: bool, openDate: string, openTime: string)
    requires CanonicalIn(columns)
    ensures IsNewOrderRow(NewOrderRow(columns, id, description, requester, location, urgent, openDate, openTime),
                          id, description, requester, location, urgent, openDate, openTime)
  {
    NewOrderRowFormCells(columns, id, description, requester, location, urgent, openDate, openTime);
    NewOrderRowInitialState(columns, id, description, requester, location, urgent, openDate, openTime);
  }

  lemma NewOrderRowFormCells(columns: seq<Column>, id: int, description: string, requester: string, location: string,
                             urgent: bool, openDate: string, openTime: string)
    requires CanonicalIn(columns)
    ensures HasFormCells(NewOrderRow(columns, id, description, requester, location, urgent, openDate, openTime),
                         id, description, requester, location, openDate, openTime)
  {
    var row := NewOrderRow(columns, id, description, requester, location, urgent, openDate, openTime);
    assert Id in row && Description in row && Requester in row && Location in row;
    assert OpenDate in row && OpenTime in row;
  }

  lemma NewOrderRowInitialState(columns: seq<Column>, id: int, description: string, requester: string, location: string,
                                urgent: bool, openDate: string, openTime: string)
    requires CanonicalIn(columns)
    ensures HasInitialState(NewOrderRow(columns, id, description, requester, location, urgent, openDate, openTime), urgent)
  {
    var row := NewOrderRow(columns, id, description, requester, location, urgent, openDate, openTime);
    assert Status in row && Kind in row;
    assert DoneDate in row && DoneTime in row && Executor1 in row && Executor2 in row && Urgent in row;
  }

  /** The loaded table with one row appended. */
  function AppendRow(t: Table, row: Row): (u: Table)
    ensures u.columns == t.columns && |u.rows| == |t.rows| + 1
    ensures u.rows[..|t.rows|] == t.rows && u.rows[|t.rows|] == row
  {
    Table(t.columns, t.rows + [row])
  }

  /** Registers a new order. A blank description, requester or location refuses
      it; otherwise the loaded table is reconciled with the canonical schema and
      one pending, unassigned order with a fresh ID is appended after all the
      existing rows, which are left as they were. */
  function AddOrder(t: Table, description: string, requester: string, location: string,
                    urgent: bool, openDate: string, openTime: string): (r: Result<Table, OrderError>)
    ensures r.Err? <==> description == "" || requester == "" || location == ""
    ensures r.Err? ==> r.error == MissingRequiredField
    ensures r.Ok? ==>
      && |r.value.rows| == |t.rows| + 1
      && r.value.columns == Backfill(t).columns
      && r.value.rows == Backfill(t).rows + [r.value.rows[|t.rows|]]
    ensures r.Ok? && HasCanonical(t) ==>
      r.value.columns == t.columns && r.value.rows == t.rows + [r.value.rows[|t.rows|]]
    ensures r.Ok? ==>
      var row := r.value.rows[|t.rows|];
      && HasCanonical(r.value)
      && IsNewOrderRow(row, NextId(t), description, requester, location, urgent, openDate, openTime)
  {
    if description == "" || requester == "" || location == "" then
      Err(MissingRequiredField)
    else
      var base := Backfill(t);
      var row := NewOrderRow(base.columns, NextId(t), description, requester, location, urgent, openDate, openTime);
      var u := AppendRow(base, row);
      NewOrderRowCells(base.columns, NextId(t), description, requester, location, urgent, openDate, openTime);
      assert HasCanonical(t) ==> base == t by {
        if HasCanonical(t) {
          BackfillNoOp(t);
        }
      }
      Ok(u)
  }

  /** Every ID the reconciled table holds is the ID the row had before. */
  lemma BackfillKeepsIds(t: Table, i: int)
    requires 0 <= i < |t.rows|
    ensures IdOf(Backfill(t).rows[i]) == IdOf(t.rows[i]) || IdOf(Backfill(t).rows[i]).None?
  {
    if Id in Backfill(t).rows[i] && Id !in t.columns {
      assert Backfill(t).rows[i][Id] == "";
    }
  }

  /** Reconciling the schema keeps order IDs unique. */
  lemma BackfillKeepsIdsUnique(t: Table)
    requires UniqueIds(t.rows)
    ensures UniqueIds(Backfill(t).rows)
  {
    var b := Backfill(t).rows;
    forall i, j | 0 <= i < j < |b| && IdOf(b[i]).Some?
      ensures IdOf(b[i]) != IdOf(b[j])
    {
      BackfillKeepsIds(t, i);
      BackfillKeepsIds(t, j);
    }
  }

  /** Appending a row whose ID exceeds every ID in use keeps IDs unique. */
  lemma AppendFreshKeepsIdsUnique(rows: seq<Row>, row: Row, n: int)
    requires UniqueIds(rows)
    requires forall i | 0 <= i < |rows| && IdOf(rows[i]).Some? :: IdOf(rows[i]).value < n
    requires IdOf(row) == Some(n)
    ensures UniqueIds(rows + [row])
  {
    var u := rows + [row];
    forall i, j | 0 <= i < j < |u| && IdOf(u[i]).Some?
      ensures IdOf(u[i]) != IdOf(u[j])
    {
      assert u[i] == rows[i];
      if j < |rows| {
        assert u[j] == rows[j];
      }
    }
  }

  /** Registering an order keeps order IDs unique: the new ID exceeds every ID in use. */
  lemma AddOrderKeepsIdsUnique(t: Table, description: string, requester: string, location: string,
                               urgent: bool, openDate: string, openTime: string)
    requires UniqueIds(t.rows)
    requires AddOrder(t, description, requester, location, urgent, openDate, openTime).Ok?
    ensures UniqueIds(AddOrder(t, description, requester, location, urgent, openDate, openTime).value.rows)
  {
    var u := AddOrder(t, description, requester, location, urgent, openDate, openTime).value;
    var b := Backfill(t).rows;
    var n := |t.rows|;
    BackfillKeepsIdsUnique(t);
    var next := NextId(t);
    forall i | 0 <= i < n && IdOf(b[i]).Some?
      ensures IdOf(b[i]).value < next
    {
      BackfillKeepsIds(t, i);
      assert IdOf(b[i]) == IdOf(t.rows[i]);
    }
    AppendFreshKeepsIdsUnique(b, u.rows[n], next);
  }

  /** Registering an order keeps the table well formed. */
  lemma AddOrderWellFormed(t: Table, description: string, requester: string, location: string,
                           urgent: bool, openDate: string, openTime: string)
    requires WellFormed(t)
    requires AddOrder(t, description, requester, location, urgent, openDate, openTime).Ok?
    ensures WellFormed(AddOrder(t, description, requester, location, urgent, openDate, openTime).value)
  {
    BackfillWellFormed(t);
  }

  /** The supervisor's update form: the new status, maintenance type and executors. */
  datatype OrderUpdate = OrderUpdate(status: string, kind: string, executor1: string, executor2: string)

  /** Statuses that may only be set with a primary executor. */
  predicate NeedsExecutor(status: string) {
    status == InProgress || status == Done
  }

  /** The six columns an update assigns, in the order it assigns them. */
  const UpdatedColumns: seq<Column> := [Status, Executor1, Executor2, Kind, DoneDate, DoneTime]

  predicate IsUpdated(c: Column) {
    c == Status || c == Executor1 || c == Executor2 || c == Kind || c == DoneDate || c == DoneTime
  }

  /** The completion date and time an update writes: the clock reading when the
      order is being marked done, blank otherwise. */
  function Completion(status: string, doneDate: string, doneTime: string): (string, string) {
    if status == Done then (doneDate, doneTime) else ("", "")
  }

  /** The cells an update leaves in a selected order: the form's values, the
      completion stamp, and every other cell as it was. */
  ghost predicate IsUpdatedRow(before: Row, after: Row, u: OrderUpdate, doneDate: string, doneTime: string) {
    && after.Keys == before.Keys + {Status, Executor1, Executor2, Kind, DoneDate, DoneTime}
    && after[Status] == u.status
    && after[Executor1] == u.executor1
    && after[Executor2] == u.executor2
    && after[Kind] == u.kind
    && (after[DoneDate], after[DoneTime]) == Completion(u.status, doneDate, doneTime)
    && forall c | c in before && !IsUpdated(c) :: after[c] == before[c]
  }

  /** Every cell of before under one of cols is still in after, unchanged. */
  ghost predicate KeepsCells(before: Row, after: Row, cols: seq<Column>) {
    forall c | c in before && c in cols :: c in after && after[c] == before[c]
  }

  function ApplyUpdate(row: Row, u: OrderUpdate, doneDate: string, doneTime: string): (r: Row)
    ensures IsUpdatedRow(row, r, u, doneDate, doneTime)
    ensures IdOf(r) == IdOf(row)
  {
    var (d, h) := Completion(u.status, doneDate, doneTime);
    row[Status := u.status][Executor1 := u.executor1][Executor2 := u.executor2][Kind := u.kind]
       [DoneDate := d][DoneTime := h]
  }

  /** The row an update leaves: the selected order takes the update, any other
      row gets blank cells under the appended columns. */
  function UpdatedRow(row: Row, id: int, u: OrderUpdate, doneDate: string, doneTime: string,
                      added: seq<Column>): Row
  {
    if IdOf(row) == Some(id) then ApplyUpdate(row, u, doneDate, doneTime) else FillRow(row, added)
  }

  function UpdateRows(rows: seq<Row>, id: int, u: OrderUpdate, doneDate: string, doneTime: string,
                      added: seq<Column>): (r: seq<Row>)
    ensures |r| == |rows|
    ensures forall i | 0 <= i < |rows| :: r[i] == UpdatedRow(rows[i], id, u, doneDate, doneTime, added)
  {
    if |rows| == 0 then []
    else [UpdatedRow(rows[0], id, u, doneDate, doneTime, added)] + UpdateRows(rows[1..], id, u, doneDate, doneTime, added)
  }

  /** The table after the update's six assignments: any of the six columns the
      table lacks is appended, blank in the rows not selected. */
  function UpdatedTable(t: Table, id: int, u: OrderUpdate, doneDate: string, doneTime: string): Table
  {
    var added := MissingFrom(t.columns, UpdatedColumns);
    Table(t.columns + added, UpdateRows(t.rows, id, u, doneDate, doneTime, added))
  }

  /** Updates the order with the given ID. Marking an order in progress or done
      without a primary executor is refused. Otherwise every row with that ID
      takes the new status, executors and type, a completion date and time when
      the status is done and blank ones for any other status, and keeps its other
      cells; every other row keeps all its cells, and the IDs stay as they were. */
  function UpdateOrder(t: Table, id: int, u: OrderUpdate, doneDate: string, doneTime: string): (r: Result<Table, OrderError>)
    ensures r.Err? <==> NeedsExecutor(u.status) && u.executor1 == ""
    ensures r.Err? ==> r.error == ExecutorRequired
    ensures r.Ok? ==>
      && |r.value.columns| >= |t.columns| && r.value.columns[..|t.columns|] == t.columns
      && |r.value.rows| == |t.rows|
    ensures r.Ok? ==> forall i | 0 <= i < |t.rows| :: IdOf(r.value.rows[i]) == IdOf(t.rows[i])
    ensures r.Ok? ==> forall i | 0 <= i < |t.rows| && IdOf(t.rows[i]) == Some(id) ::
              IsUpdatedRow(t.rows[i], r.value.rows[i], u, doneDate, doneTime)
    ensures r.Ok? ==> forall i | 0 <= i < |t.rows| && IdOf(t.rows[i]) != Some(id) ::
              KeepsCells(t.rows[i], r.value.rows[i], t.columns)
    ensures r.Ok? ==> forall c :: c in r.value.columns <==> c in t.columns || IsUpdated(c)
    ensures r.Ok? ==> forall i, c | 0 <= i < |t.rows| && IdOf(t.rows[i]) != Some(id) && IsUpdated(c) && c !in t.columns ::
              c in r.value.rows[i] && r.value.rows[i][c] == ""
  {
    if NeedsExecutor(u.status) && u.executor1 == "" then
      Err(ExecutorRequired)
    else
      UpdatedColumnsFacts();
      var added := MissingFrom(t.columns, UpdatedColumns);
      var r := UpdatedTable(t, id, u, doneDate, doneTime);
      var rows := r.rows;
      forall i | 0 <= i < |t.rows|
        ensures IdOf(rows[i]) == IdOf(t.rows[i])
      {
        if IdOf(t.rows[i]) != Some(id) {
          assert Id in t.rows[i] ==> Id in rows[i] && rows[i][Id] == t.rows[i][Id];
          assert Id !in t.rows[i] ==> IdOf(t.rows[i]) == None;
        }
      }
      forall i | 0 <= i < |t.rows| && IdOf(t.rows[i]) != Some(id)
        ensures KeepsCells(t.rows[i], rows[i], t.columns)
      {
        assert rows[i] == FillRow(t.rows[i], added);
      }
      assert r.columns[..|t.columns|] == t.columns;
      Ok(r)
  }

  /** An update never changes an ID, so IDs that were unique stay unique. */
  lemma UpdateOrderKeepsIdsUnique(t: Table, id: int, u: OrderUpdate, doneDate: string, doneTime: string)
    requires UniqueIds(t.rows)
    requires UpdateOrder(t, id, u, doneDate, doneTime).Ok?
    ensures UniqueIds(UpdateOrder(t, id, u, doneDate, doneTime).value.rows)
  {
    var r := UpdateOrder(t, id, u, doneDate, doneTime).value;
    forall i, j | 0 <= i < j < |r.rows| && IdOf(r.rows[i]).Some?
      ensures IdOf(r.rows[i]) != IdOf(r.rows[j])
    {
      assert IdOf(r.rows[i]) == IdOf(t.rows[i]);
      assert IdOf(r.rows[j]) == IdOf(t.rows[j]);
    }
  }

  lemma UpdatedColumnsFacts()
    ensures Distinct(UpdatedColumns)
    ensures forall c :: c in UpdatedColumns <==> IsUpdated(c)
  {
  }

  /** An update keeps the table well formed: any of the six columns it was
      missing are appended once, and every row has a cell under each of them. */
  lemma UpdateOrderWellFormed(t: Table, id: int, u: OrderUpdate, doneDate: string, doneTime: string)
    requires WellFormed(t)
    requires UpdateOrder(t, id, u, doneDate, doneTime).Ok?
    ensures WellFormed(UpdateOrder(t, id, u, doneDate, doneTime).value)
  {
    UpdatedTableWellFormed(t, id, u, doneDate, doneTime);
  }

  /** The header after an update covers the old columns and the six updated ones. */
  lemma UpdatedColumnSet(cols: seq<Column>)
    ensures (set c | c in cols + MissingFrom(cols, UpdatedColumns))
            == (set c | c in cols) + {Status, Executor1, Executor2, Kind, DoneDate, DoneTime}
  {
    var added := MissingFrom(cols, UpdatedColumns);
    var header := set c | c in cols + added;
    var expected := (set c | c in cols) + {Status, Executor1, Executor2, Kind, DoneDate, DoneTime};
    UpdatedColumnsFacts();
    forall c
      ensures c in header <==> c in expected
    {
      assert c in added <==> IsUpdated(c) && c !in cols;
      assert c in cols + added <==> c in cols || c in added;
    }
    assert header == expected;
  }

  lemma UpdatedTableWellFormed(t: Table, id: int, u: OrderUpdate, doneDate: string, doneTime: string)
    requires WellFormed(t)
    ensures WellFormed(UpdatedTable(t, id, u, doneDate, doneTime))
  {
    var r := UpdatedTable(t, id, u, doneDate, doneTime);
    var added := MissingFrom(t.columns, UpdatedColumns);
    UpdatedColumnsFacts();
    DistinctAppend(t.columns, added);
    var before := set c | c in t.columns;
    var keys := set c | c in r.columns;
    UpdatedColumnSet(t.columns);
    ColumnSetAppend(t.columns, added);
    forall i | 0 <= i < |r.rows|
      ensures r.rows[i].Keys == keys
    {
      var row := t.rows[i];
      assert row in t.rows;
      assert row.Keys == before;
      if IdOf(row) == Some(id) {
        var a := ApplyUpdate(row, u, doneDate, doneTime);
        assert r.rows[i] == a;
        assert a.Keys == before + {Status, Executor1, Executor2, Kind, DoneDate, DoneTime};
      } else {
        var f := FillRow(row, added);
        assert r.rows[i] == f;
        assert f.Keys == before + (set c | c in added);
      }
    }
    assert forall x | x in r.rows :: x.Keys == keys;
  }

  /** On a table that already has the six updated columns, an update changes
      neither the header nor any row other than the selected ones. */
  lemma UpdateOrderInPlace(t: Table, id: int, u: OrderUpdate, doneDate: string, doneTime: string)
    requires HasCanonical(t)
    requires UpdateOrder(t, id, u, doneDate, doneTime).Ok?
    ensures UpdateOrder(t, id, u, doneDate, doneTime).value.columns == t.columns
    ensures forall i | 0 <= i < |t.rows| && IdOf(t.rows[i]) != Some(id) ::
              UpdateOrder(t, id, u, doneDate, doneTime).value.rows[i] == t.rows[i]
  {
    UpdatedTableInPlace(t, id, u, doneDate, doneTime);
  }

  lemma UpdatedTableInPlace(t: Table, id: int, u: OrderUpdate, doneDate: string, doneTime: string)
    requires forall c | c in UpdatedColumns :: c in t.columns
    ensures UpdatedTable(t, id, u, doneDate, doneTime).columns == t.columns
    ensures forall i | 0 <= i < |t.rows| && IdOf(t.rows[i]) != Some(id) ::
              UpdatedTable(t, id, u, doneDate, doneTime).rows[i] == t.rows[i]
  {
    var r := UpdatedTable(t, id, u, doneDate, doneTime);
    assert MissingFrom(t.columns, UpdatedColumns) == [];
    forall i | 0 <= i < |t.rows| && IdOf(t.rows[i]) != Some(id)
      ensures r.rows[i] == t.rows[i]
    {
      FillRowNothing(t.rows[i]);
    }
  }

  /** Submitting the same update twice leaves the table as submitting it once. */
  lemma UpdateOrderIdempotent(t: Table, id: int, u: OrderUpdate, doneDate: string, doneTime: string)
    requires UpdateOrder(t, id, u, doneDate, doneTime).Ok?
    ensures UpdateOrder(UpdateOrder(t, id, u, doneDate, doneTime).value, id, u, doneDate, doneTime)
            == UpdateOrder(t, id, u, doneDate, doneTime)
  {
    UpdatedTableIdempotent(t, id, u, doneDate, doneTime);
  }

  lemma ApplyUpdateTwice(row: Row, u: OrderUpdate, doneDate: string, doneTime: string)
    ensures ApplyUpdate(ApplyUpdate(row, u, doneDate, doneTime), u, doneDate, doneTime)
            == ApplyUpdate(row, u, doneDate, doneTime)
  {
    var a := ApplyUpdate(row, u, doneDate, doneTime);
    var b := ApplyUpdate(a, u, doneDate, doneTime);
    assert b.Keys == a.Keys;
    forall c | c in a
      ensures b[c] == a[c]
    {
      if !IsUpdated(c) {
        assert b[c] == a[c];
      }
    }
  }

  lemma UpdatedRowStable(row: Row, id: int, u: OrderUpdate, doneDate: string, doneTime: string,
                         added: seq<Column>)
    requires Id !in added
    ensures UpdatedRow(UpdatedRow(row, id, u, doneDate, doneTime, added), id, u, doneDate, doneTime, [])
            == UpdatedRow(row, id, u, doneDate, doneTime, added)
  {
    var r1 := UpdatedRow(row, id, u, doneDate, doneTime, added);
    if IdOf(row) == Some(id) {
      assert IdOf(r1) == Some(id);
      ApplyUpdateTwice(row, u, doneDate, doneTime);
    } else {
      FillRowKeepsId(row, added);
      assert FillRow(r1, []) == r1;
    }
  }

  lemma UpdatedTableIdempotent(t: Table, id: int, u: OrderUpdate, doneDate: string, doneTime: string)
    ensures UpdatedTable(UpdatedTable(t, id, u, doneDate, doneTime), id, u, doneDate, doneTime)
            == UpdatedTable(t, id, u, doneDate, doneTime)
  {
    var r := UpdatedTable(t, id, u, doneDate, doneTime);
    var added := MissingFrom(t.columns, UpdatedColumns);
    UpdatedColumnsFacts();
    assert forall c | c in UpdatedColumns :: c in r.columns;
    assert MissingFrom(r.columns, UpdatedColumns) == [];
    assert Id !in added;
    var rows2 := UpdateRows(r.rows, id, u, doneDate, doneTime, []);
    forall i | 0 <= i < |r.rows|
      ensures rows2[i] == r.rows[i]
    {
      assert r.rows[i] == UpdatedRow(t.rows[i], id, u, doneDate, doneTime, added);
      assert rows2[i] == UpdatedRow(r.rows[i], id, u, doneDate, doneTime, []);
      UpdatedRowStable(t.rows[i], id, u, doneDate, doneTime, added);
    }
    assert rows2 == r.rows;
  }

  /** The first order registered on the empty table gets ID 1 and starts pending. */
  lemma FirstOrderRegistered(description: string, requester: string, location: string,
                             urgent: bool, openDate: string, openTime: string)
    requires description != "" && requester != "" && location != ""
    ensures var added := AddOrder(EmptyTable, description, requester, location, urgent, openDate, openTime);
            && added.Ok? && |added.value.rows| == 1 && IdOf(added.value.rows[0]) == Some(1)
            && Cell(added.value.rows[0], Status) == Pending
  {
    EmptyTableCanonical();
    assert NextId(EmptyTable) == 1;
  }

  /** Pausing an order, or putting it back to pending, needs no executor, and
      it clears the completion date and time. */
  lemma PausingNeedsNoExecutor(t: Table, i: nat, kind: string, doneDate: string, doneTime: string)
    requires i < |t.rows| && IdOf(t.rows[i]).Some?
    ensures forall status | status in {Paused, Pending} ::
              var r := UpdateOrder(t, IdOf(t.rows[i]).value, OrderUpdate(status, kind, "", ""), doneDate, doneTime);
              && r.Ok?
              && r.value.rows[i][Status] == status
              && r.value.rows[i][DoneDate] == ""
              && r.value.rows[i][DoneTime] == ""
  {
    forall status | status in {Paused, Pending}
      ensures var r := UpdateOrder(t, IdOf(t.rows[i]).value, OrderUpdate(status, kind, "", ""), doneDate, doneTime);
              && r.Ok?
              && r.value.rows[i][Status] == status
              && r.value.rows[i][DoneDate] == ""
              && r.value.rows[i][DoneTime] == ""
    {
      var u := OrderUpdate(status, kind, "", "");
      var r := UpdateOrder(t, IdOf(t.rows[i]).value, u, doneDate, doneTime);
      assert !NeedsExecutor(status);
      assert IsUpdatedRow(t.rows[i], r.value.rows[i], u, doneDate, doneTime);
    }
  }

  /** Closing an order without a primary executor is refused; closing it with
      one stamps the completion date and time on that order. */
  lemma ClosingAnOrder(t: Table, i: nat, kind: string, executor: string, doneDate: string, doneTime: string)
    requires i < |t.rows| && IdOf(t.rows[i]).Some?
    ensures UpdateOrder(t, IdOf(t.rows[i]).value, OrderUpdate(Done, kind, "", ""), doneDate, doneTime)
            == Err(ExecutorRequired)
    ensures executor != "" ==>
              var closed := UpdateOrder(t, IdOf(t.rows[i]).value, OrderUpdate(Done, kind, executor, ""), doneDate, doneTime);
              && closed.Ok?
              && closed.value.rows[i][Status] == Done
              && closed.value.rows[i][Executor1] == executor
              && closed.value.rows[i][DoneDate] == doneDate
              && closed.value.rows[i][DoneTime] == doneTime
  {
    if executor != "" {
      var u := OrderUpdate(Done, kind, executor, "");
      var closed := UpdateOrder(t, IdOf(t.rows[i]).value, u, doneDate, doneTime);
      assert IsUpdatedRow(t.rows[i], closed.value.rows[i], u, doneDate, doneTime);
    }
  }
}

=== FILE: queries.dfy ===
/** Searching and filtering the order table: exact matches on the ID, status
    and maintenance type, a case-insensitive substring match on the other text
    columns, and the listing's status and type filters where "Todos" means no
    filter. Every result keeps the table's columns and its rows' order. */
module Queries {
  import opened Results
  import opened Tables

  /** The choice offered by the listing filters that selects everything. */
  const All: string := "Todos"

  /** A search criterion as the advanced search form offers it. */
  datatype Criterion =
    | ById(id: int)
    | ByStatus(status: string)
    | ByKind(kind: string)
    | ByText(column: Column, needle: string)

  /** The upper-case letters the search folds: A to Z, and the Latin-1 capitals
      from À to Þ other than the multiplication sign. */
  predicate IsUpper(c: char) {
    'A' <= c <= 'Z' || ('À' <= c <= 'Þ' && c != '×')
  }

  /** Lower-cases an upper-case letter; each one's lower-case form lies 32 code
      points above it. */
  function Fold(c: char): (r: char)
    ensures !IsUpper(r)
  {
    if IsUpper(c) then (c as int + 32) as char else c
  }

  function FoldText(s: string): (r: string)
    ensures |r| == |s|
    ensures forall i | 0 <= i < |s| :: r[i] == Fold(s[i])
  {
    if |s| == 0 then [] else [Fold(s[0])] + FoldText(s[1..])
  }

  /** Folding a folded text changes nothing. */
  lemma FoldTextIdempotent(s: string)
    ensures FoldText(FoldText(s)) == FoldText(s)
  {
    var f := FoldText(s);
    forall i | 0 <= i < |s|
      ensures FoldText(f)[i] == f[i]
    {
      assert !IsUpper(f[i]);
    }
  }

  /** needle occurs in hay starting at position i. */
  ghost predicate OccursAt(needle: string, hay: string, i: int) {
    0 <= i && i + |needle| <= |hay| && hay[i..i + |needle|] == needle
  }

  /** Substring search, one start position at a time. */
  function Occurs(needle: string, hay: string): (b: bool)
    ensures b <==> exists i :: OccursAt(needle, hay, i)
    decreases |hay|
  {
    if needle <= hay then
      assert OccursAt(needle, hay, 0);
      true
    else if |hay| == 0 then
      assert forall i | OccursAt(needle, hay, i) :: i == 0;
      false
    else
      var rest := Occurs(needle, hay[1..]);
      assert rest ==> exists i :: OccursAt(needle, hay, i) by {
        if rest {
          var i :| OccursAt(needle, hay[1..], i);
          assert hay[1..][i..i + |needle|] == hay[i + 1..i + 1 + |needle|];
          assert OccursAt(needle, hay, i + 1);
        }
      }
      assert (exists i :: OccursAt(needle, hay, i)) ==> rest by {
        if exists i :: OccursAt(needle, hay, i) {
          var i :| OccursAt(needle, hay, i);
          assert i != 0;
          assert hay[1..][i - 1..i - 1 + |needle|] == hay[i..i + |needle|];
          assert OccursAt(needle, hay[1..], i - 1);
        }
      }
      rest
  }

  /** The text search: needle occurs in hay when both are case-folded. */
  function ContainsIgnoringCase(hay: string, needle: string): (b: bool)
    ensures b <==> exists i :: OccursAt(FoldText(needle), FoldText(hay), i)
    ensures needle == "" ==> b
    ensures hay == needle ==> b
  {
    assert needle == "" || hay == needle ==> OccursAt(FoldText(needle), FoldText(hay), 0) by {
      if needle == "" || hay == needle {
        assert FoldText(hay)[0..|FoldText(needle)|] == FoldText(needle);
      }
    }
    Occurs(FoldText(needle), FoldText(hay))
  }

  /** The text search does not tell letters apart by case: a text and its
      case-folded form match the same needles. */
  lemma SearchIgnoresCase(hay: string, needle: string)
    ensures ContainsIgnoringCase(FoldText(hay), needle) == ContainsIgnoringCase(hay, needle)
    ensures ContainsIgnoringCase(hay, FoldText(needle)) == ContainsIgnoringCase(hay, needle)
  {
    FoldTextIdempotent(hay);
    FoldTextIdempotent(needle);
  }

  /** The search's test of one row. */
  predicate Matches(row: Row, c: Criterion) {
    match c
    case ById(id) => IdOf(row) == Some(id)
    case ByStatus(s) => Cell(row, Status) == s
    case ByKind(k) => Cell(row, Kind) == k
    case ByText(col, needle) => ContainsIgnoringCase(Cell(row, col), needle)
  }

  /** a is b with some elements left out, the rest in their original order. */
  ghost predicate IsSubsequence(a: seq<Row>, b: seq<Row>)
    decreases |b|
  {
    if |a| == 0 then true
    else if |b| == 0 then false
    else (a[0] == b[0] && IsSubsequence(a[1..], b[1..])) || IsSubsequence(a, b[1..])
  }

  /** The rows that satisfy the criterion, in table order. */
  function Select(rows: seq<Row>, c: Criterion): (r: seq<Row>)
    ensures forall x :: x in r <==> x in rows && Matches(x, c)
    ensures IsSubsequence(r, rows)
    ensures |r| <= |rows|
  {
    if |rows| == 0 then []
    else
      var rest := Select(rows[1..], c);
      if Matches(rows[0], c) then
        assert ([rows[0]] + rest)[1..] == rest;
        [rows[0]] + rest
      else rest
  }

  /** Selecting commutes with concatenation, so a row's place relative to the
      others is the same in the result as in the table. */
  lemma {:induction false} SelectAppend(a: seq<Row>, b: seq<Row>, c: Criterion)
    ensures Select(a + b, c) == Select(a, c) + Select(b, c)
  {
    if |a| == 0 {
      assert a + b == b;
    } else {
      assert (a + b)[1..] == a[1..] + b;
      SelectAppend(a[1..], b, c);
    }
  }

  /** Select keeps each matching row as many times as the input holds it, and
      no other row. */
  lemma {:induction false} SelectCount(rows: seq<Row>, c: Criterion)
    ensures forall x :: multiset(Select(rows, c))[x] == if Matches(x, c) then multiset(rows)[x] else 0
  {
    if |rows| > 0 {
      SelectCount(rows[1..], c);
      assert rows == [rows[0]] + rows[1..];
    }
  }

  /** Selecting again with the same criterion changes nothing. */
  lemma {:induction false} SelectIdempotent(rows: seq<Row>, c: Criterion)
    ensures Select(Select(rows, c), c) == Select(rows, c)
  {
    if |rows| > 0 {
      SelectIdempotent(rows[1..], c);
      if Matches(rows[0], c) {
        var rest := Select(rows[1..], c);
        assert ([rows[0]] + rest)[1..] == rest;
      }
    }
  }

  /** The advanced search: the table restricted to the rows the criterion matches. */
  function Search(t: Table, c: Criterion): (r: Table)
    ensures r.columns == t.columns
    ensures forall x :: x in r.rows <==> x in t.rows && Matches(x, c)
    ensures forall x :: multiset(r.rows)[x] == if Matches(x, c) then multiset(t.rows)[x] else 0
    ensures IsSubsequence(r.rows, t.rows)
  {
    SelectCount(t.rows, c);
    Table(t.columns, Select(t.rows, c))
  }

  /** The listing's filters: "Todos" leaves the column unfiltered, any other
      choice keeps the rows whose cell equals it. The status filter is applied
      first, then the type filter. */
  function ListFilter(t: Table, status: string, kind: string): (r: Table)
    ensures r.columns == t.columns
    ensures forall x :: x in r.rows <==>
              && x in t.rows
              && (status == All || Cell(x, Status) == status)
              && (kind == All || Cell(x, Kind) == kind)
    ensures forall x :: multiset(r.rows)[x] ==
              if (status == All || Cell(x, Status) == status) && (kind == All || Cell(x, Kind) == kind)
              then multiset(t.rows)[x] else 0
    ensures status == All && kind == All ==> r == t
  {
    var byStatus := if status == All then t else Search(t, ByStatus(status));
    if kind == All then byStatus else Search(byStatus, ByKind(kind))
  }

  /** An order-preserving selection of an order-preserving selection is one. */
  lemma {:induction false} SubsequenceTransitive(a: seq<Row>, b: seq<Row>, c: seq<Row>)
    requires IsSubsequence(a, b) && IsSubsequence(b, c)
    ensures IsSubsequence(a, c)
    decreases |c|
  {
    if |a| > 0 {
      assert |b| > 0 && |c| > 0;
      if b[0] == c[0] && IsSubsequence(b[1..], c[1..]) {
        if a[0] == b[0] && IsSubsequence(a[1..], b[1..]) {
          SubsequenceTransitive(a[1..], b[1..], c[1..]);
        } else {
          SubsequenceTransitive(a, b[1..], c[1..]);
        }
      } else {
        SubsequenceTransitive(a, b, c[1..]);
      }
    }
  }

  lemma SubsequenceReflexive(a: seq<Row>)
    ensures IsSubsequence(a, a)
    decreases |a|
  {
    if |a| > 0 {
      SubsequenceReflexive(a[1..]);
    }
  }

  /** The listing keeps the table's row order. */
  lemma ListFilterOrdered(t: Table, status: string, kind: string)
    ensures IsSubsequence(ListFilter(t, status, kind).rows, t.rows)
  {
    var byStatus := if status == All then t else Search(t, ByStatus(status));
    SubsequenceReflexive(t.rows);
    assert IsSubsequence(byStatus.rows, t.rows);
    if kind != All {
      SubsequenceTransitive(ListFilter(t, status, kind).rows, byStatus.rows, t.rows);
    }
  }
}

=== FILE: results.dfy ===
/** Failure-carrying values shared by the record-store modules. */
module Results {

  /** An optional value: a missing file, a cell that is not a numeral, an empty backup directory. */
  datatype Option<+T> = None | Some(value: T)

  /** The outcome of an operation that can be refused with a reason. */
  datatype Result<+T, +E> = Ok(value: T) | Err(error: E)
}

=== FILE: store.dfy ===
/** Loading and saving the order table: the live CSV file, read through the
    legacy conversion and the column backfill, with the newest backup as the
    fallback when the live file cannot be read; saving backfills, writes the
    live file and takes a backup. File contents are modelled as already-parsed
    tables; reading and writing a CSV are taken to be exact inverses. */
module Store {
  import opened Results
  import opened Tables
  import opened Backups
  import LexOrder

  /** The live file as the loader finds it. An empty or malformed file is
      Unreadable: parsing it fails. */
  datatype LiveFile = Missing | Unreadable | Parsed(table: Table)

  /** A load's outcome: the table the app works on, and the table written over
      the live file on the way, if any. */
  datatype Loaded = Loaded(table: Table, rewritten: Option<Table>)

  /** The normalisation a freshly parsed table goes through: the legacy
      executor migration, then the backfill. The table keeps its rows and every
      cell outside the migrated columns; the primary executor takes over the
      legacy executor's cells and the secondary one is blanked; every other
      canonical column the file lacked is added blank. The contract states
      which columns the result has, not their order. */
  function Normalize(t: Table): (r: Table)
    ensures HasCanonical(r)
    ensures WellFormed(t) ==> WellFormed(r)
    ensures |r.rows| == |t.rows|
    ensures forall c :: c in r.columns <==>
              (c in t.columns && !(LegacyApplies(t) && c == LegacyExecutor)) || IsCanonical(c)
    ensures forall i | 0 <= i < |t.rows| :: NormalizedRow(t, r, i)
  {
    var c := ConvertLegacy(t);
    assert WellFormed(t) ==> WellFormed(Backfill(c)) by {
      if WellFormed(t) {
        ConvertLegacyWellFormed(t);
        BackfillWellFormed(c);
      }
    }
    NormalizedColumns(t);
    assert forall i | 0 <= i < |t.rows| :: NormalizedRow(t, Backfill(c), i) by {
      forall i | 0 <= i < |t.rows|
        ensures NormalizedRow(t, Backfill(c), i)
      {
        NormalizedRowCells(t, i);
      }
    }
    Backfill(c)
  }

  /** Row i of r is row i of t after the migration and the backfill. */
  ghost predicate NormalizedRow(t: Table, r: Table, i: int)
    requires 0 <= i < |t.rows| && |r.rows| == |t.rows|
  {
    && (forall c | c in t.columns && c in t.rows[i] && !(LegacyApplies(t) && (c == LegacyExecutor || c == Executor2)) ::
          c in r.rows[i] && r.rows[i][c] == t.rows[i][c])
    && (LegacyApplies(t) ==>
          && Cell(r.rows[i], Executor1) == Cell(t.rows[i], LegacyExecutor)
          && Cell(r.rows[i], Executor2) == "")
    && (forall c | IsCanonical(c) && c !in t.columns && !(LegacyApplies(t) && c == Executor1) ::
          c in r.rows[i] && r.rows[i][c] == "")
  }

  lemma NormalizedColumns(t: Table)
    ensures forall c :: c in Backfill(ConvertLegacy(t)).columns <==>
              (c in t.columns && !(LegacyApplies(t) && c == LegacyExecutor)) || IsCanonical(c)
  {
  }

  lemma NormalizedRowCells(t: Table, i: int)
    requires 0 <= i < |t.rows|
    ensures NormalizedRow(t, Backfill(ConvertLegacy(t)), i)
  {
    if LegacyApplies(t) {
      MigratedRowCells(t, i);
    }
  }

  lemma MigratedRowCells(t: Table, i: int)
    requires 0 <= i < |t.rows| && LegacyApplies(t)
    ensures NormalizedRow(t, Backfill(ConvertLegacy(t)), i)
  {
    MigratedKeptCells(t, i);
    MigratedExecutorCells(t, i);
    MigratedAddedCells(t, i);
  }

  lemma MigratedKeptCells(t: Table, i: int)
    requires 0 <= i < |t.rows| && LegacyApplies(t)
    ensures var r := Backfill(ConvertLegacy(t));
            forall c | c in t.columns && c in t.rows[i] && c != LegacyExecutor && c != Executor2 ::
              c in r.rows[i] && r.rows[i][c] == t.rows[i][c]
  {
    var m := ConvertLegacy(t);
    forall c | c in t.columns && c in t.rows[i] && c != LegacyExecutor && c != Executor2
      ensures c in m.columns && c in m.rows[i] && m.rows[i][c] == t.rows[i][c]
    {
      assert c != Executor1;
    }
  }

  lemma MigratedExecutorCells(t: Table, i: int)
    requires 0 <= i < |t.rows| && LegacyApplies(t)
    ensures var r := Backfill(ConvertLegacy(t));
            && Cell(r.rows[i], Executor1) == Cell(t.rows[i], LegacyExecutor)
            && Cell(r.rows[i], Executor2) == ""
  {
    var m := ConvertLegacy(t);
    assert Executor1 in m.columns && Executor2 in m.columns;
    assert Executor1 in m.rows[i] && Executor2 in m.rows[i];
  }

  lemma MigratedAddedCells(t: Table, i: int)
    requires 0 <= i < |t.rows| && LegacyApplies(t)
    ensures var r := Backfill(ConvertLegacy(t));
            forall c | IsCanonical(c) && c !in t.columns && c != Executor1 ::
              c in r.rows[i] && r.rows[i][c] == ""
  {
    var m := ConvertLegacy(t);
    assert Executor2 in m.columns && Executor2 in m.rows[i] && m.rows[i][Executor2] == "";
    forall c | IsCanonical(c) && c !in t.columns && c != Executor1 && c != Executor2
      ensures c !in m.columns
    {
    }
  }

  /** Loads the order table. A missing live file is first created holding the
      empty table with the canonical header. A live file that cannot be parsed
      is replaced by the newest backup, when there is one and it parses; failing
      that, the empty table is used and nothing is written. Whatever the path,
      the loaded table has every canonical column. */
  function Load(live: LiveFile, backups: set<string>, readBackup: string -> Option<Table>): (r: Loaded)
    ensures HasCanonical(r.table)
    ensures live == Missing ==> r == Loaded(EmptyTable, Some(EmptyTable))
    ensures live.Parsed? ==> r.rewritten == None && r.table == Normalize(live.table)
    ensures r.rewritten.Some? ==> r.rewritten.value == r.table
    ensures live.Unreadable? && r.rewritten.None? ==> r.table == EmptyTable
    ensures live.Unreadable? && r.rewritten.Some? ==>
              && Latest(backups).Some?
              && readBackup(Latest(backups).value).Some?
    ensures live.Unreadable? && Latest(backups).Some? && readBackup(Latest(backups).value).Some? ==>
              && r.rewritten.Some?
              && r.table == Normalize(readBackup(Latest(backups).value).value)
  {
    match live
    case Missing =>
      EmptyTableCanonical();
      Loaded(EmptyTable, Some(EmptyTable))
    case Parsed(t) =>
      Loaded(Normalize(t), None)
    case Unreadable =>
      EmptyTableCanonical();
      match Latest(backups)
      case None => Loaded(EmptyTable, None)
      case Some(name) =>
        match readBackup(name)
        case None => Loaded(EmptyTable, None)
        case Some(b) =>
          var t := Normalize(b);
          Loaded(t, Some(t))
  }

  /** The fallback as the loader's code has it: the backup is converted from
      the legacy layout and written over the live file, but not backfilled. */
  function LoadAsWritten(live: LiveFile, backups: set<string>, readBackup: string -> Option<Table>): (r: Loaded)
    ensures live.Unreadable? && r.rewritten.Some? ==>
              && Latest(backups).Some?
              && readBackup(Latest(backups).value).Some?
              && r.table == ConvertLegacy(readBackup(Latest(backups).value).value)
    ensures live.Unreadable? && Latest(backups).Some? && readBackup(Latest(backups).value).Some? ==>
              r.rewritten == Some(r.table)
    ensures live.Unreadable? && r.rewritten.None? ==> r.table == EmptyTable
    ensures !live.Unreadable? ==> r == Load(live, backups, readBackup)
  {
    if live.Unreadable? then
      match Latest(backups)
      case None => Loaded(EmptyTable, None)
      case Some(name) =>
        match readBackup(name)
        case None => Loaded(EmptyTable, None)
        case Some(b) =>
          var t := ConvertLegacy(b);
          Loaded(t, Some(t))
    else Load(live, backups, readBackup)
  }

  /** A backup holding only the ID column comes back from the fallback without
      the other canonical columns, which the listing, search and update read. */
  lemma LoadAsWrittenMissesColumns()
    ensures var r := LoadAsWritten(Unreadable, {"ordens_servico_1.csv"}, _ => Some(Table([Id], [])));
            && r.table == Table([Id], [])
            && !HasCanonical(r.table)
  {
    var name := "ordens_servico_1.csv";
    assert IsBackupName(name);
    LatestOfOne(name);
    assert Description !in [Id];
  }

  /** A directory holding one backup has that backup as its latest. */
  lemma LatestOfOne(name: string)
    requires IsBackupName(name)
    ensures Latest({name}) == Some(name)
  {
    var l := Listing({name});
    assert forall n :: n in l <==> n in {name};
    LexOrder.SortedCardinality(l, {name});
    assert l == [name];
  }

  /** A loaded table that already has the current layout is the table itself. */
  lemma LoadCurrentLayout(t: Table, backups: set<string>, readBackup: string -> Option<Table>)
    requires HasCanonical(t)
    ensures Load(Parsed(t), backups, readBackup).table == t
  {
    assert !LegacyApplies(t);
    BackfillNoOp(t);
  }

  /** Saves the order table: the missing canonical columns are added, the result
      is written over the live file, and a backup of it is taken under the
      timestamp's name, after which at most MaxBackups backups remain. */
  method Save(t: Table, backups: set<string>, stamp: string)
    returns (written: Table, backupsAfter: set<string>, created: Option<string>)
    ensures written == Backfill(t)
    ensures HasCanonical(written)
    ensures |written.rows| == |t.rows|
    ensures forall i, c | 0 <= i < |t.rows| && c in t.columns && c in t.rows[i] ::
              c in written.rows[i] && written.rows[i][c] == t.rows[i][c]
    ensures Normalize(written) == written
    ensures created == Some(BackupName(stamp))
    ensures |Listing(backupsAfter)| <= MaxBackups
    ensures backupsAfter <= backups + {BackupName(stamp)}
    ensures PrunedTo(backups + {BackupName(stamp)}, MaxBackups, backupsAfter)
    ensures (forall n | n in backups && IsBackupName(n) :: LexOrder.Less(n, BackupName(stamp)))
            ==> BackupName(stamp) in backupsAfter
  {
    written := Backfill(t);
    LoadCurrentLayout(written, backups, _ => None);
    // The written file starts with its header line, so it is never empty.
    created, backupsAfter := MakeBackup(backups, Some(1), stamp);
  }

  /** Loading what a save wrote gives back the saved table. */
  lemma SaveLoadRoundTrip(t: Table, backups: set<string>, readBackup: string -> Option<Table>)
    ensures Load(Parsed(Backfill(t)), backups, readBackup) == Loaded(Backfill(t), None)
  {
    LoadCurrentLayout(Backfill(t), backups, readBackup);
  }
}

=== FILE: tables.dfy ===
/** The order table as the store sees it once the CSV text is parsed: an ordered
    list of column names and one row per order mapping each column to its cell
    text. This module fixes the canonical schema and reconciles older files with
    it: the legacy single-executor migration and the backfill of missing columns. */
module Tables {
  import opened Results
  import opened Numerals

  /** A column of the order file. The thirteen canonical columns and the legacy
      single-executor column are named; any other header is kept as Other. */
  datatype Column =
    | Id | Description | OpenDate | OpenTime | Requester | Location | Kind
    | Status | DoneDate | DoneTime | Executor1 | Executor2 | Urgent
    | LegacyExecutor
    | Other(header: string)

  type Row = map<Column, string>

  datatype Table = Table(columns: seq<Column>, rows: seq<Row>)

  /** The thirteen columns every loaded or saved table carries, in file order. */
  const Canonical: seq<Column> :=
    [Id, Description, OpenDate, OpenTime, Requester, Location, Kind,
     Status, DoneDate, DoneTime, Executor1, Executor2, Urgent]

  /** The table written for a missing file: the canonical header and no orders. */
  const EmptyTable := Table(Canonical, [])

  predicate Distinct(s: seq<Column>) {
    forall i, j | 0 <= i < j < |s| :: s[i] != s[j]
  }

  /** What a parsed data frame always satisfies: no column appears twice and
      every row has a cell in exactly the table's columns. */
  predicate WellFormed(t: Table) {
    && Distinct(t.columns)
    && forall r | r in t.rows :: r.Keys == set c | c in t.columns
  }

  /** c is one of the thirteen canonical columns. */
  predicate IsCanonical(c: Column) {
    !c.Other? && c != LegacyExecutor
  }

  /** The canonical header lists exactly the canonical columns. */
  lemma CanonicalMembers()
    ensures forall c :: c in Canonical <==> IsCanonical(c)
  {
    CanonicalMembersOnly();
    CanonicalMembersAll();
  }

  lemma CanonicalMembersOnly()
    ensures forall c | c in Canonical :: IsCanonical(c)
  {
    forall i | 0 <= i < |Canonical|
      ensures IsCanonical(Canonical[i])
    {
    }
  }

  lemma CanonicalMembersAll()
    ensures forall c | IsCanonical(c) :: c in Canonical
  {
    forall c | IsCanonical(c)
      ensures c in Canonical
    {
      match c
      case Id => assert Canonical[0] == c;
      case Description => assert Canonical[1] == c;
      case OpenDate => assert Canonical[2] == c;
      case OpenTime => assert Canonical[3] == c;
      case Requester => assert Canonical[4] == c;
      case Location => assert Canonical[5] == c;
      case Kind => assert Canonical[6] == c;
      case Status => assert Canonical[7] == c;
      case DoneDate => assert Canonical[8] == c;
      case DoneTime => assert Canonical[9] == c;
      case Executor1 => assert Canonical[10] == c;
      case Executor2 => assert Canonical[11] == c;
      case Urgent => assert Canonical[12] == c;
    }
  }

  /** Every canonical column is among cols. */
  predicate CanonicalIn(cols: seq<Column>) {
    && Id in cols && Description in cols && OpenDate in cols && OpenTime in cols
    && Requester in cols && Location in cols && Kind in cols && Status in cols
    && DoneDate in cols && DoneTime in cols && Executor1 in cols && Executor2 in cols
    && Urgent in cols
  }

  lemma CanonicalInCovers(cols: seq<Column>)
    ensures CanonicalIn(cols) <==> forall c | IsCanonical(c) :: c in cols
  {
    if CanonicalIn(cols) {
      forall c | IsCanonical(c)
        ensures c in cols
      {
        match c
        case Id =>
        case Description =>
        case OpenDate =>
        case OpenTime =>
        case Requester =>
        case Location =>
        case Kind =>
        case Status =>
        case DoneDate =>
        case DoneTime =>
        case Executor1 =>
        case Executor2 =>
        case Urgent =>
      }
    }
  }

  predicate HasCanonical(t: Table) {
    CanonicalIn(t.columns)
  }

  /** The text of a cell, "" where the row has no such column. */
  function Cell(r: Row, c: Column): string {
    if c in r then r[c] else ""
  }

  /** The integer ID of a row; None where the ID cell is missing or not a numeral,
      the cases the data frame holds as NaN. */
  function IdOf(r: Row): Option<int> {
    if Id in r then ParseInt(r[Id]) else None
  }

  /** Order IDs are pairwise distinct. */
  ghost predicate UniqueIds(rows: seq<Row>) {
    forall i, j | 0 <= i < j < |rows| && IdOf(rows[i]).Some? :: IdOf(rows[i]) != IdOf(rows[j])
  }

  lemma DistinctAppend(a: seq<Column>, b: seq<Column>)
    requires Distinct(a) && Distinct(b)
    requires forall x | x in b :: x !in a
    ensures Distinct(a + b)
  {
    forall i, j | 0 <= i < j < |a + b|
      ensures (a + b)[i] != (a + b)[j]
    {
      if j < |a| {
        assert (a + b)[i] == a[i] && (a + b)[j] == a[j];
      } else if i < |a| {
        assert (a + b)[i] == a[i] && (a + b)[j] == b[j - |a|];
        assert a[i] in a && b[j - |a|] in b;
      } else {
        assert (a + b)[i] == b[i - |a|] && (a + b)[j] == b[j - |a|];
      }
    }
  }

  /** cols without c. */
  function RemoveColumn(cols: seq<Column>, c: Column): (r: seq<Column>)
    ensures forall x :: x in r <==> x in cols && x != c
    ensures Distinct(cols) ==> Distinct(r)
  {
    if |cols| == 0 then []
    else
      var rest := RemoveColumn(cols[1..], c);
      if cols[0] == c then rest
      else
        assert Distinct(cols) ==> Distinct([cols[0]] + rest) by {
          if Distinct(cols) {
            assert cols[0] !in cols[1..];
            DistinctAppend([cols[0]], rest);
          }
        }
        [cols[0]] + rest
  }

  /** The legacy migration applies to a table that still has the single executor
      column and not yet the primary-executor column. */
  predicate LegacyApplies(t: Table) {
    LegacyExecutor in t.columns && Executor1 !in t.columns
  }

  function MigrateRow(r: Row): Row {
    (r - {LegacyExecutor})[Executor1 := Cell(r, LegacyExecutor)][Executor2 := ""]
  }

  /** Migrates the legacy executor column: the primary executor takes over the
      old values, the secondary executor is blank, the old column is dropped.
      New columns are appended (an existing secondary-executor column keeps its
      place but is blanked); any other table is returned as it is. The contract
      states which columns the result has, not their order. */
  function ConvertLegacy(t: Table): (r: Table)
    ensures !LegacyApplies(t) ==> r == t
    ensures LegacyApplies(t) ==>
      && LegacyExecutor !in r.columns && Executor1 in r.columns && Executor2 in r.columns
      && (forall c :: c in r.columns <==> (c in t.columns && c != LegacyExecutor) || c == Executor1 || c == Executor2)
      && |r.rows| == |t.rows|
      && (forall i | 0 <= i < |t.rows| ::
            && Executor1 in r.rows[i] && Executor2 in r.rows[i]
            && r.rows[i][Executor1] == Cell(t.rows[i], LegacyExecutor)
            && r.rows[i][Executor2] == ""
            && LegacyExecutor !in r.rows[i]
            && forall c | c in t.rows[i] && c !in {LegacyExecutor, Executor1, Executor2} ::
                 c in r.rows[i] && r.rows[i][c] == t.rows[i][c])
  {
    if LegacyApplies(t) then
      var cols := RemoveColumn(t.columns, LegacyExecutor) + [Executor1]
                  + (if Executor2 in t.columns then [] else [Executor2]);
      Table(cols, seq(|t.rows|, i requires 0 <= i < |t.rows| => MigrateRow(t.rows[i])))
    else t
  }

  /** The empty table already has the canonical header. */
  lemma EmptyTableCanonical()
    ensures HasCanonical(EmptyTable) && WellFormed(EmptyTable)
  {
    CanonicalInCovers(Canonical);
    CanonicalMembers();
    CanonicalDistinct();
  }

  /** The canonical columns absent from cols, in canonical order. */
  function MissingFrom(cols: seq<Column>, wanted: seq<Column>): (r: seq<Column>)
    ensures forall x :: x in r <==> x in wanted && x !in cols
    ensures Distinct(wanted) ==> Distinct(r)
    ensures (forall x | x in wanted :: x in cols) ==> r == []
  {
    if |wanted| == 0 then []
    else
      var rest := MissingFrom(cols, wanted[1..]);
      if wanted[0] in cols then rest
      else
        assert Distinct(wanted) ==> Distinct([wanted[0]] + rest) by {
          if Distinct(wanted) {
            assert wanted[0] !in wanted[1..];
            DistinctAppend([wanted[0]], rest);
          }
        }
        [wanted[0]] + rest
  }

  /** The canonical columns cols lacks, in canonical order. */
  function MissingCanonical(cols: seq<Column>): (r: seq<Column>)
    ensures forall c :: c in r <==> IsCanonical(c) && c !in cols
    ensures Distinct(r)
    ensures CanonicalIn(cols) ==> r == []
  {
    CanonicalMembers();
    CanonicalDistinct();
    CanonicalInCovers(cols);
    MissingFrom(cols, Canonical)
  }

  /** A row with a blank cell in each added column. */
  function FillRow(r: Row, added: seq<Column>): (f: Row)
    ensures f.Keys == r.Keys + (set c | c in added)
    ensures forall c | c in r && c !in added :: f[c] == r[c]
    ensures forall c | c in added :: f[c] == ""
  {
    r + map c | c in added :: ""
  }

  /** Filling no column leaves a row as it is. */
  lemma FillRowNothing(r: Row)
    ensures FillRow(r, []) == r
  {
    assert FillRow(r, []).Keys == r.Keys;
  }

  lemma FillRowKeepsId(r: Row, added: seq<Column>)
    requires Id !in added
    ensures IdOf(FillRow(r, added)) == IdOf(r)
  {
    var f := FillRow(r, added);
    assert Id in f <==> Id in r;
    assert Id in r ==> f[Id] == r[Id];
  }

  function FillRows(rows: seq<Row>, added: seq<Column>): (r: seq<Row>)
    ensures |r| == |rows|
    ensures forall i | 0 <= i < |rows| :: r[i] == FillRow(rows[i], added)
  {
    if |rows| == 0 then [] else [FillRow(rows[0], added)] + FillRows(rows[1..], added)
  }

  /** The backfilled header: the existing columns, then the missing canonical ones. */
  function BackfillColumns(cols: seq<Column>): (r: seq<Column>)
    ensures CanonicalIn(r)
    ensures |r| >= |cols| && r[..|cols|] == cols
    ensures forall c :: c in r <==> c in cols || IsCanonical(c)
  {
    var r := cols + MissingCanonical(cols);
    CanonicalInCovers(r);
    assert r[..|cols|] == cols;
    r
  }

  /** Adds, with blank cells, every canonical column the table lacks. Existing
      columns keep their order and every existing cell keeps its text. */
  function Backfill(t: Table): (r: Table)
    ensures HasCanonical(r)
    ensures |r.columns| >= |t.columns| && r.columns[..|t.columns|] == t.columns
    ensures forall c :: c in r.columns <==> c in t.columns || IsCanonical(c)
    ensures |r.rows| == |t.rows|
    ensures forall i, c | 0 <= i < |t.rows| && c in t.columns && c in t.rows[i] ::
              c in r.rows[i] && r.rows[i][c] == t.rows[i][c]
    ensures forall i, c | 0 <= i < |t.rows| && IsCanonical(c) && c !in t.columns ::
              c in r.rows[i] && r.rows[i][c] == ""
  {
    var added := MissingCanonical(t.columns);
    var rows := FillRows(t.rows, added);
    assert forall i, c | 0 <= i < |t.rows| && c in t.columns && c in t.rows[i] ::
             c in rows[i] && rows[i][c] == t.rows[i][c];
    assert forall i, c | 0 <= i < |t.rows| && IsCanonical(c) && c !in t.columns ::
             c in rows[i] && rows[i][c] == "";
    Table(BackfillColumns(t.columns), rows)
  }

  /** A table that already has every canonical column is left as it is. */
  lemma BackfillNoOp(t: Table)
    requires HasCanonical(t)
    ensures Backfill(t) == t
  {
    var added := MissingCanonical(t.columns);
    assert added == [];
    var r := Backfill(t);
    assert r.columns == t.columns;
    forall i | 0 <= i < |t.rows|
      ensures r.rows[i] == t.rows[i]
    {
      assert FillRow(t.rows[i], []) == t.rows[i];
    }
  }

  /** The migration keeps a table well formed. */
  lemma ConvertLegacyWellFormed(t: Table)
    requires WellFormed(t)
    ensures WellFormed(ConvertLegacy(t))
  {
    var r := ConvertLegacy(t);
    if LegacyApplies(t) {
      var tail := if Executor2 in t.columns then [] else [Executor2];
      var kept := RemoveColumn(t.columns, LegacyExecutor);
      assert r.columns == kept + [Executor1] + tail;
      DistinctAppend(kept, [Executor1]);
      DistinctAppend(kept + [Executor1], tail);
      forall i | 0 <= i < |r.rows|
        ensures r.rows[i].Keys == set c | c in r.columns
      {
        assert t.rows[i] in t.rows;
      }
    }
  }

  /** The backfill keeps a table well formed. */
  lemma BackfillWellFormed(t: Table)
    requires WellFormed(t)
    ensures WellFormed(Backfill(t))
  {
    var r := Backfill(t);
    var added := MissingCanonical(t.columns);
    assert r.columns == t.columns + added;
    DistinctAppend(t.columns, added);
    ColumnSetAppend(t.columns, added);
    forall i | 0 <= i < |r.rows|
      ensures r.rows[i].Keys == set c | c in r.columns
    {
      assert t.rows[i] in t.rows;
      assert r.rows[i] == FillRow(t.rows[i], added);
    }
  }

  /** The position of a canonical column in the canonical header. */
  function CanonicalRank(c: Column): int {
    match c
    case Id => 0
    case Description => 1
    case OpenDate => 2
    case OpenTime => 3
    case Requester => 4
    case Location => 5
    case Kind => 6
    case Status => 7
    case DoneDate => 8
    case DoneTime => 9
    case Executor1 => 10
    case Executor2 => 11
    case Urgent => 12
    case _ => -1
  }

  lemma CanonicalDistinct()
    ensures Distinct(Canonical)
  {
    assert forall i | 0 <= i < |Canonical| :: CanonicalRank(Canonical[i]) == i;
  }

  /** The columns of s follow the canonical header's order. */
  predicate CanonicalOrder(s: seq<Column>) {
    forall i, j | 0 <= i < j < |s| :: CanonicalRank(s[i]) < CanonicalRank(s[j])
  }

  /** Picking out the missing columns keeps the order of the wanted list. */
  lemma {:induction false} MissingFromOrder(cols: seq<Column>, wanted: seq<Column>)
    requires CanonicalOrder(wanted)
    ensures CanonicalOrder(MissingFrom(cols, wanted))
    decreases |wanted|
  {
    if |wanted| > 0 {
      OrderTail(wanted);
      MissingFromOrder(cols, wanted[1..]);
      if wanted[0] !in cols {
        OrderCons(wanted, MissingFrom(cols, wanted[1..]));
      }
    }
  }

  lemma OrderTail(s: seq<Column>)
    requires |s| > 0 && CanonicalOrder(s)
    ensures CanonicalOrder(s[1..])
  {
    forall i, j | 0 <= i < j < |s| - 1
      ensures CanonicalRank(s[1..][i]) < CanonicalRank(s[1..][j])
    {
      assert s[1..][i] == s[i + 1] && s[1..][j] == s[j + 1];
    }
  }

  /** Putting the first wanted column before an ordered pick from the rest keeps the order. */
  lemma OrderCons(wanted: seq<Column>, rest: seq<Column>)
    requires |wanted| > 0 && CanonicalOrder(wanted) && CanonicalOrder(rest)
    requires forall x | x in rest :: x in wanted[1..]
    ensures CanonicalOrder([wanted[0]] + rest)
  {
    var r := [wanted[0]] + rest;
    forall i, j | 0 <= i < j < |r|
      ensures CanonicalRank(r[i]) < CanonicalRank(r[j])
    {
      if i == 0 {
        assert r[j] in wanted[1..];
        var k :| 0 <= k < |wanted| - 1 && wanted[1..][k] == r[j];
        assert wanted[k + 1] == r[j];
      } else {
        assert r[i] == rest[i - 1] && r[j] == rest[j - 1];
      }
    }
  }

  /** Backfill appends the missing columns in the canonical header's order. */
  lemma BackfillCanonicalOrder(t: Table)
    ensures forall i, j | |t.columns| <= i < j < |Backfill(t).columns| ::
              CanonicalRank(Backfill(t).columns[i]) < CanonicalRank(Backfill(t).columns[j])
  {
    assert forall i | 0 <= i < |Canonical| :: CanonicalRank(Canonical[i]) == i;
    assert CanonicalOrder(Canonical);
    CanonicalMembers();
    CanonicalDistinct();
    CanonicalInCovers(t.columns);
    MissingFromOrder(t.columns, Canonical);
    var added := MissingCanonical(t.columns);
    assert added == MissingFrom(t.columns, Canonical);
    var r := Backfill(t).columns;
    assert r == t.columns + added;
    forall i, j | |t.columns| <= i < j < |r|
      ensures CanonicalRank(r[i]) < CanonicalRank(r[j])
    {
      assert r[i] == added[i - |t.columns|] && r[j] == added[j - |t.columns|];
    }
  }

  lemma ColumnSetAppend(a: seq<Column>, b: seq<Column>)
    ensures (set c | c in a + b) == (set c | c in a) + (set c | c in b)
  {
  }


  /** Migrating a table twice is migrating it once. */
  lemma ConvertLegacyIdempotent(t: Table)
    ensures ConvertLegacy(ConvertLegacy(t)) == ConvertLegacy(t)
  {
  }

  /** Backfilling a table twice is backfilling it once. */
  lemma BackfillIdempotent(t: Table)
    ensures Backfill(Backfill(t)) == Backfill(t)
  {
    BackfillNoOp(Backfill(t));
  }
}
